=== FILE: README.md ===
# yasli string core in Dafny

This project models the string core of yasli, a small C string library. A
string (`string_t`) is a length-plus-capacity record around a NUL-terminated
byte buffer. Four pieces of logic are modelled around that record:

- **Capacity policy** (`Buffer`). `str_resize` moves the capacity along a
  tier sequence: it doubles while the capacity is at most 1024, then grows
  in steps of 512. It shrinks in 512-byte steps for targets above 1024 and
  by halving below that, which can leave the growth tiers. It skips the
  reallocation when the capacity does not change. The module also covers
  `str_new_string`, `str_clear` and `str_reserve`.
- **UTF-8 lead-byte walker** (`Utf8`). `str_utf8_strlen`, `str_utf8_substr`
  and `str_utf8_char_at` classify lead bytes by the table in section 3 of
  RFC 3629 and skip 1 to 4 bytes. Any other lead byte is an error.
- **Slice engine** (`Stride`, `Slicing`, `Utf8Slicing`). A Python-like
  `(start, end, step)` triple, with the `YASLI_START`/`YASLI_END`
  sentinels, is resolved into a half-open range of bytes or of codepoints.
  Every |step|-th element is then read forwards or backwards. This covers
  `str_sliced`, `str_slice`, `str_utf8_sliced` and `str_utf8_slice`.
- **Byte-level edits, comparisons and the sort-mode parser** (`Edit`,
  `Compare`, `SortMode`).
  - Edits: substr, insert, remove, strip, split, replace, and the append
    and `new_strings` concatenations.
  - Comparisons and predicates: strcmp, streq, start/end-with, has,
    char_at, isdigit, isxdigit, isfloat.
  - Sorting: the mode-letter state machine of `str_sort`/`str_sorted` and
    its five comparators.

The modelling choices:

- A string is `Str(bytes, capacity)`. `bytes` holds the meaningful bytes
  without the terminator. `Buffer.Valid` is the record invariant:
  - 16 ≤ capacity ≤ PTRDIFF_MAX;
  - length < capacity;
  - no NUL among the bytes.
- Every operation is a pure function, or a method with a real result. The
  C library signals failure with NULL, 0 or an empty buffer. The model
  returns a `Result` whose `Error` says which guard fired.
- A `-ed` form (`str_sliced`, `str_inserted_cstr`, ...) builds a fresh
  string, whose capacity starts from 16. The matching in-place form
  (`str_slice`, `str_insert_cstr`, ...) returns the updated record, whose
  capacity follows the resize rule from its old capacity.
- Variadic and NULL-terminated argument lists become `seq` parameters.
- The signedness of `char` is implementation-defined in C. It is a
  `signed: bool` parameter of the comparisons.
- `size_t` arithmetic in the slice resolution is written out as reduction
  modulo 2^64 (`Slicing.SizeT`).

Two properties a reader might expect do not hold in the code, and the
model keeps them as the code has them:

- A slice whose resolved lower bound exceeds its upper bound is rejected
  for a positive step too (yasli.c:1215-1220).
- The resize rule has no hysteresis at a tier boundary. Resizing between
  lengths 31 and 32 moves the capacity 32 → 64 → 32 on every call
  (`Buffer.ResizeThrashesAtTierBoundary`).

## Model

| member | source | states |
|---|---|---|
| Buffer.Needed | yasli.c:36-39 | the target capacity is at least 16 and holds the string plus its terminator |
| Buffer.Grow | yasli.c:40-47 | growth ends at the first tier at or above the target on the tier sequence from the old capacity; it over-allocates by less than a doubling for small strings, or by less than one 512-byte step |
| Buffer.ShrinkLinear | yasli.c:59-64 | the 512-byte shrink loop never drops below the target, stops within 512 bytes of it, moves only in whole steps, and keeps the capacity exactly when it is already within 512 of the target |
| Buffer.ShrinkHalving | yasli.c:65-70 | the halving loop never drops below the target, ends below twice the target, and keeps the capacity exactly when it is already below twice the target |
| Buffer.NewCapacity | yasli.c:25-83 | after `str_resize` the capacity is at least max(16, size+1); growth stops at the first reachable tier that fits; shrinking keeps it below 2·cap (cap ≤ 1024) or at most cap+512 (cap > 1024) |
| Buffer.NoReallocIffInBand | yasli.c:48-48 | the capacity stays unchanged (no realloc, no terminator write) exactly when it already lies in the band the shrink rule settles on |
| Buffer.NewCapacityBounded | yasli.c:25-83 | resizing to at most MAX_LENGTH bytes keeps length < capacity ≤ PTRDIFF_MAX, so the record invariant survives |
| Buffer.Allocate | yasli.c:25-83 | a resize fails exactly for requests beyond MAX_LENGTH; on success the string holds the given bytes, its capacity follows the resize rule from the old capacity, and NUL-free bytes give a valid string |
| Buffer.Fresh | yasli.c:28-31 | a string made from a NULL handle holds exactly the given bytes, and its capacity is the one the resize rule computes starting from 16 |
| Buffer.NewString | yasli.c:85-93 | `str_new_string` copies a C string into a valid string with the same bytes |
| Buffer.Clear | yasli.c:260-266 | clearing leaves a valid empty string whose capacity shrinks, to below 32 |
| Buffer.Reserve | yasli.c:273-282 | reserving keeps the contents and makes room for at least `length` bytes plus the terminator; a request no larger than the current length changes nothing |
| Buffer.ResizeThrashesAtTierBoundary | yasli.c:58-71 | resizing a string of capacity 32 to 32 bytes goes to 64, and back to 31 bytes returns to 32 |
| Buffer.FreshTiers | yasli.c:30-47 | every capacity the growth loop reaches from 16 is a power of two from 16 to 2048, or 2048 plus a multiple of 512 |
| Buffer.ShrinkLeavesGrowthTiers | yasli.c:58-71 | shrinking leaves those tiers: capacity 2048 resized to 1024 bytes becomes 1536, and 1536 resized to 700 bytes becomes 768; the growth loop reaches neither from 16 |
| Utf8.LeadWidth | yasli.c:206-224 | a lead byte announces width 1, 2, 3 or 4 exactly for the bit patterns 0xxxxxxx, 110xxxxx, 1110xxxx, 11110xxx, and 0 for any other byte |
| Utf8.WalkShape | yasli.c:191-228 | the walk puts each codepoint at the offset of the widths before it, on a lead byte announcing its width; an invalid walk stops at a byte that cannot lead, and a valid one reaches the end of a NUL-free string |
| Utf8.Utf8Strlen | yasli.c:191-228 | `str_utf8_strlen` is 0 for a NULL string or a string with a bad lead byte, and otherwise the number of codepoints the walk finds, never more than the byte length |
| Utf8.StrlenStopsAtNul | yasli.c:203-205 | the count stops at the first NUL: bytes after it are never read |
| Utf8.AsciiCodepoints | yasli.c:191-228 | on an all-ASCII string the count equals the byte length and every codepoint is one byte |
| Utf8.WalkOfEncoded | yasli.c:191-228 | round trip: walking a string built from codepoints whose lead bytes announce their own lengths yields exactly those codepoints, and their number as the count |
| Utf8.CodepointsWellFramed | yasli.c:191-228 | every codepoint the walk delimits in a NUL-free string starts with a lead byte announcing its own length |
| Utf8.Utf8Substr | yasli.c:479-553 | `str_utf8_substr` succeeds exactly when start+size fits both the byte length and the codepoint count, and then yields the bytes of codepoints start .. start+size-1 |
| Utf8.Utf8CharAt | yasli.c:1126-1181 | `str_utf8_char_at` yields the bytes of codepoint `index` (at most 4), and the empty buffer exactly when the index is past the last codepoint |
| Slicing.SizeT | yasli.c:1198-1206 | a negative offset converts to `size_t` by adding 2^64 |
| Slicing.Resolve | yasli.c:1188-1220 | a step of 0 is InvalidStep; any other failure is OutOfBounds; a resolved range satisfies lo ≤ hi ≤ len |
| Slicing.ResolveIsDenoted | yasli.c:1197-1220 | the C resolution computes the range the triple denotes (end 0 means the end for a positive step, start 0 means the end for a negative one, an offset before the front lands on len) and fails exactly when that range is inverted, for either sign of step |
| Slicing.ReversedSentinelsRejected | yasli.c:1200-1220 | `(YASLI_START, YASLI_END, -k)` is rejected on any non-empty string |
| Slicing.FullRanges | yasli.h:185-196 | `(START, END, k)` and `(END, START, -k)` both cover the whole string |
| Slicing.SteppedIndex | yasli.c:1221-1237 | a stepped read has ceil(n/|step|) elements; element m is element m·|step| going forwards, or n-1-m·|step| going backwards |
| Slicing.ExtractForward | yasli.c:1228-1230 | the forward copy loop reads every k-th element from the first |
| Slicing.ExtractBackward | yasli.c:1231-1235 | the reverse copy loop, counting a `size_t` index down until it wraps, reads every k-th element from the last |
| Slicing.Extract | yasli.c:1221-1237 | the copy loops yield the stepped read of the range |
| Slicing.Sliced | yasli.c:1187-1242 | `str_sliced` fails exactly when resolution fails, with the same error; otherwise it has ceil((hi-lo)/|step|) bytes, and byte m is s[lo + m·|step|] forwards or s[hi-1-m·|step|] backwards |
| Slicing.Slice | yasli.c:1244-1314 | `str_slice` succeeds exactly when `str_sliced` does, leaves exactly its bytes in the string, and resizes the capacity from the old one |
| Slicing.SliceExamples | yasli.c:1187-1242 | "abcdefgh" with (1,7,2) is "bdf" and with (END,START,-2) is "hfdb"; (START,END,-1) is rejected and step 0 is an error |
| Slicing.WholeSlices | yasli.h:185-196 | a whole slice with step 1 copies the string, one with step -1 reverses it, and reversing twice restores it |
| Stride.Forward | yasli.c:1222-1225 | reading every k-th element yields ceil(n/k) elements |
| Stride.BackwardIsForwardOfReverse | yasli.c:1231-1235 | reading every k-th element from the back is reading every k-th element of the reversal |
| Stride.ForwardSelectedIsSum | yasli.c:1405-1408 | the sizing rule `c % k == 0` adds up the widths of exactly the codepoints the forward copy picks |
| Stride.BackwardSelectedIsSum | yasli.c:1409-1413 | the sizing rule `(n-c-1) % k == 0` adds up the widths of exactly the codepoints the reverse copy picks |
| Utf8Slicing.SelectedSize | yasli.c:1382-1461 | the sizing loop's total is the sum of the widths of the codepoints the slice picks |
| Utf8Slicing.Utf8Sliced | yasli.c:1316-1502 | `str_utf8_sliced` resolves over the `str_utf8_strlen` count and fails exactly when that fails; its byte length is the sum of the picked widths; walking the result yields the picked codepoints, in order forwards and last-first backwards, ceil((hi-lo)/|step|) of them |
| Utf8Slicing.Utf8SliceShape | yasli.c:1504-1699 | `str_utf8_slice` applies the same checks as `str_utf8_sliced`, takes the same byte length, and resizes the capacity from the old one |
| Utf8Slicing.WholeUtf8Slice | yasli.c:1467-1477 | the forward copy with (START, END, 1) reproduces a string the walk accepts |
| Utf8Slicing.AsciiSlicesAgree | yasli.c:1316-1502 | on ASCII bytes the codepoint slice equals the byte slice for every triple |
| Utf8Slicing.ReverseCopyCounterexample | yasli.c:1479-1490 | the reverse copy as written turns the codepoints "é", "a" (bytes C3 A9 61) into bytes 61 A9 61 |
| Utf8Slicing.ReverseEAcuteThenA | yasli.c:1479-1490 | the corrected reverse slice turns C3 A9 61 into 61 C3 A9 |
| Utf8Slicing.ReverseCopyAgreesOnUniformWidths | yasli.c:1479-1490 | when the range is not empty and all its codepoints have one width, the reverse copy as written yields the same bytes as the corrected slice |
| Utf8Slicing.ReverseEmptyRange | yasli.c:1478-1480 | reversing the empty string: the corrected slice is empty, while the copy as written reads the width table at `sub_len - 1`, outside its bounds |
| Edit.Substr | yasli.c:462-477 | `str_substr` fails exactly when start+size exceeds the length; otherwise the source is its prefix before start, then the result of `size` bytes, then the rest |
| Edit.Inserted | yasli.c:568-585 | insertion rejects an index past the length; otherwise the result is the source's prefix, then the inserted bytes, then the suffix |
| Edit.Insert | yasli.c:587-603 | the in-place insert leaves the same bytes as `str_inserted_cstr` and resizes from the old capacity |
| Edit.Removed | yasli.c:1757-1780 | removal from NULL is an error, and a run past the end is OutOfBounds; otherwise putting the removed run back at `index` rebuilds the source |
| Edit.Remove | yasli.c:1782-1801 | the in-place remove leaves the same bytes as `str_removed` and resizes from the old capacity |
| Edit.InsertThenRemove | yasli.c:568-585 | removing what was just inserted restores the original bytes |
| Edit.RemoveThenInsert | yasli.c:1757-1780 | inserting the removed run where it was restores the original bytes |
| Edit.LeadCount | yasli.c:931-941 | the left strip loop counts a run of needle bytes that is followed by a byte outside the needle |
| Edit.TrailCount | yasli.c:949-959 | the right strip loop counts needle bytes down to index 1, stopping at the first byte outside the needle |
| Edit.StripCore | yasli.c:927-966 | what is kept has no needle byte at either end, and is the source less a needle-only prefix of the leading count and a needle-only suffix |
| Edit.StripCoreUnique | yasli.c:927-966 | the kept bytes are the only trimmed result that removes needle-only runs from the two ends |
| Edit.StripIdempotent | yasli.c:927-966 | stripping twice strips nothing more |
| Edit.Stripped | yasli.c:927-966 | `str_stripped` yields a valid trimmed string that is the source less needle-only runs at both ends |
| Edit.Strip | yasli.c:968-1007 | `str_strip` leaves the bytes of `str_stripped` and resizes from the old capacity |
| Edit.Concatenated | yasli.c:110-131 | `str_new_strings`, `str_new_string_arr`, `str_appended*` and `str_appended_cstrs` fail exactly when the total exceeds MAX_LENGTH, and otherwise hold the parts one after another, in a fresh string |
| Edit.Append | yasli.c:295-302 | `str_append`, `str_appends`, `str_append_cstr` and `str_append_cstrs` extend the string by the parts in order, resizing from its old capacity |
| Edit.PiecesFrom | yasli.c:417-448 | the pieces joined with the needle give back the input; no piece contains the needle; each cut is at the leftmost match, since a non-last piece followed by all but the last needle byte still lacks the needle |
| Edit.Split | yasli.c:417-448 | `str_split` returns at least one valid piece; the pieces joined with the needle restore the source; none contains the needle, and every cut is at the leftmost match |
| Edit.JoinLength | yasli.c:641-648 | joining n pieces adds n-1 separators to their total length |
| Edit.Replaced | yasli.c:605-671 | `str_replaced` has length len + n·(|new| - |old|) for n non-overlapping matches, fails exactly when that exceeds MAX_LENGTH, and is the split pieces joined with the replacement |
| Edit.ReplaceBySelf | yasli.c:605-671 | replacing a needle by itself yields a copy of the source |
| Edit.ReplaceWithoutMatch | yasli.c:605-671 | without any match the result is a copy of the source |
| Compare.Keys | yasli.c:869-876 | the compared values are `char` values, 0..255 unsigned or -128..127 signed, followed by the terminator's 0; an unfolded unsigned key is the byte itself, and a C string gives non-zero keys before the single 0 |
| Compare.CompareFrom | yasli.c:869-876 | the comparison loop returns 0 only when one key sequence is a prefix of the other, and otherwise the difference at the first differing position |
| Compare.CompareSign | yasli.c:869-876 | the comparison is negative exactly when the first sequence precedes the second lexicographically, and positive exactly for the converse |
| Compare.CompareZero | yasli.c:869-876 | on terminated key sequences the comparison is 0 exactly when they are equal |
| Compare.CompareBytes | yasli.c:679-712 | the byte comparison is 0, negative or positive exactly when the keys are equal, precede or follow |
| Compare.CompareAntisymmetric | yasli.c:679-712 | swapping the operands negates the comparison |
| Compare.PrecedesTransitive | yasli.c:679-712 | lexicographic precedence is transitive |
| Compare.KeysInjective | yasli.c:869-876 | without case folding, equal key sequences come only from equal strings |
| Compare.Strcmp | yasli.c:869-876 | `str_strcmp` is 0 exactly for equal strings, negative exactly when the first precedes lexicographically, and antisymmetric |
| Compare.UnsignedStrcmpIsDictionaryOrder | yasli.c:869-876 | with unsigned `char`, a negative `str_strcmp` means a proper prefix or a smaller byte at the first difference |
| Compare.Streq | yasli.c:878-888 | `str_streq` holds exactly for equal bytes |
| Compare.StartWith | yasli.c:890-896 | `str_start_with` holds exactly when the string is the prefix followed by something |
| Compare.EndWith | yasli.c:898-904 | `str_end_with` holds exactly when the string is something followed by the suffix |
| Compare.AffixesOfConcatenation | yasli.c:890-911 | a concatenation starts with its first part, ends with its second, and `strstr` finds the first part at offset 0 |
| Compare.Has | yasli.c:906-911 | `str_has` holds exactly when the needle occurs somewhere |
| Compare.CharAt | yasli.c:913-925 | `str_char_at` returns 0 and changes nothing past the end; otherwise it returns the new byte (or reads the old one when the new value is 0) and changes no other byte |
| Compare.CharAtReadWrite | yasli.c:913-925 | writing back what was read changes nothing, and a written byte reads back |
| Compare.IsDigit | yasli.c:1029-1036 | `str_isdigit` holds exactly when every byte is an ASCII digit |
| Compare.IsFloat | yasli.c:1053-1068 | `str_isfloat` holds exactly when every byte is a digit or a dot and there is at most one dot |
| Compare.IsXDigitAsWritten | yasli.c:1038-1051 | as written, `str_isxdigit` holds exactly when every byte except the one at index 1 is a hex digit: the byte at index 1 is never rejected |
| Compare.IsXDigit | yasli.c:1038-1051 | corrected, it holds exactly for hex digits with an optional "0x"/"0X" prefix |
| Compare.XDigitIndexOne | yasli.c:1041-1047 | "1g" passes as written and fails corrected; "0x1f" passes corrected |
| Compare.XDigitAgreesElsewhere | yasli.c:1038-1051 | when byte 1 is a hex digit, the two versions agree |
| SortMode.ParseFrom | yasli.c:731-757 | the mode parser fails only with InvalidMode |
| SortMode.SelectAsWritten | yasli.c:728-794 | a mode is selected only when it parses, and a rejection is InvalidMode |
| SortMode.Select | yasli.c:765-790 | the corrected dispatch selects only for modes that parse, and a rejection is InvalidMode |
| SortMode.CustomOverrides | yasli.c:732-734 | once 'c' is reached after valid letters, the custom comparator is chosen whatever follows |
| SortMode.UnknownLetterRejected | yasli.c:750-756 | an unknown letter after valid letters rejects the mode |
| SortMode.NoOrderRejected | yasli.c:785-790 | a mode of only 'i' letters, or the empty mode, chooses no ordering and is rejected |
| SortMode.LetterOrder | yasli.c:737-749 | "la" selects length-then-bytes, "al" bytes only, "l" length, "a" bytes, and "ai"/"ia" case-folded bytes |
| SortMode.FoldedLengthUnreachable | yasli.c:781-784 | as written the folded length comparator is never chosen, and "lai" selects the case-sensitive one; corrected, "lai" selects the folded one |
| SortMode.DispatchesAgreeElsewhere | yasli.c:765-790 | the corrected dispatch differs from the written one only for 'l','a' plus 'i' without 'c' |
| SortMode.OrderMeaning | yasli.c:673-726 | each comparator is negative exactly when its first argument sorts first (shorter, or same length and bytes first, or bytes first, with or without case folding), and is antisymmetric |
| SortMode.OrderZero | yasli.c:673-726 | the length comparator ties on equal lengths, the case-sensitive ones only on equal strings, and the folded ones on strings equal up to case |
| SortMode.OrderTransitive | yasli.c:673-726 | every comparator orders transitively, as qsort requires |

## Left out

- Memory management is left out: malloc/realloc/free, the GC macro swap and
  the `str_free*` functions. A request above MAX_LENGTH (2^63 - 1024 bytes)
  is modelled as a failed resize. When such a request exceeds the current
  capacity and is at most 2^64 - 513 bytes, the C code asks realloc for a
  block beyond PTRDIFF_MAX, which no allocator grants, so `str_resize`
  returns false. Larger requests never return, and a request the current
  capacity already holds succeeds in C (see `Buffer.Allocate` below). Every other allocation failure is left out. On a failed
  realloc the C code leaks the old block and nulls the handle
  (yasli.c:49-50, 72-73).
- `str_new_format`, `str_wstr`, `str_from_file`, `str_print`,
  `str_strtol`, `str_strtod`, `str_to_upper` and `str_to_lower` are left
  out. They depend on stb's vsnprintf, locale conversions, file I/O,
  libc number parsing or floating point.
- `str_strdup`, `str_strlen`, `str_capacity` and `str_clear_to` are
  accessors or copies with no logic of their own. `Buffer.NewString`
  covers a copy.
- `str_new_string_narr` ignores its `size` argument in the copy loop
  (yasli.c:158). It is covered by `Edit.Concatenated` only when `size`
  equals the number of strings.
- `str_find` and `str_utf8_find` are left out. `str_find` re-searches
  from the same pointer, so `number > 1` acts like 1 (yasli.c:1706-1711).
  `str_utf8_find` counts codepoints from the match rather than from the
  start (yasli.c:1726-1754). Neither has a contract worth stating.
- `qsort` itself and the array handling of `str_sort`/`str_sorted` are
  left out. Only the mode parser, the dispatch and the comparators are
  modelled.
- Utf8Slicing.Utf8SliceShape: the copy loops of `str_utf8_slice`
  (yasli.c:1659-1683) are left out, so it states only the resolution, the
  result size and the capacity. The forward branch walks backwards from
  index 0, and the reverse branch has no wrap guard.
- `str_reserve` loses a moved block when realloc moves it (yasli.c:278).
  `Buffer.Reserve` states the capacity the resize computes.
- Buffer.Allocate: a request of 2^64 - 512 bytes or more is reported as a
  failure, but in C it never returns. For SIZE_MAX, `size + 1` wraps to 0
  (yasli.c:39), and the halving loop then runs forever at capacity 0
  (yasli.c:65-70). For the other sizes, the growth loop pushes the capacity
  past 2^64 - 512, it wraps to 0, and doubling 0 never ends
  (yasli.c:41-46).
- Buffer.Allocate: a request above MAX_LENGTH that the current capacity
  already holds in band fails in the model. In C it succeeds: the shrink
  branch keeps the capacity and returns true at yasli.c:71 without calling
  realloc. An example is capacity 2^63 - 512 with MAX_LENGTH + 1 bytes.
  Such a capacity exists only after an allocation of about 2^63 bytes.
- Buffer.Reserve: its failure result is cleaner than the C code. A failed
  resize nulls the local handle, and `str_reserve` then writes
  `string->length` through that NULL pointer (yasli.c:278-279), so it
  never returns false. The largest requests never return, as for
  `Buffer.Allocate`.
- Edit.Append: the appended strings must not alias the string being
  extended. For `str_append(&s, s)`, `str_appends(&s, s, NULL)` or
  `str_append_cstr(&s, s->cstr)`, the C `strcpy` copies a region onto
  itself (yasli.c:298, 338-339, 366). It overwrites the terminator it is
  looking for, which is undefined behaviour, and after a moving realloc
  the source is freed memory. The model returns s + s for these calls.
- Edit.Insert: the inserted C string must not alias the string being
  changed. After a moving realloc, `str_insert_cstr(&s, i, s->cstr)`
  copies from freed memory (yasli.c:597-599).
- SortMode.Order: lengths are compared as mathematical integers. The source
  subtracts two `size_t` lengths and narrows the result to `int`
  (yasli.c:677), which can overflow for lengths 2^31 apart.
- SortMode.Order: the custom comparator passed through the variadic
  arguments is outside the model, so `Custom` has no order.
- Compare.Upper: C-locale `toupper` is applied to 'a'..'z' only. Under a
  signed `char`, `str_cmp_ai` and `str_cmp_lai` pass negative values to
  `toupper` (yasli.c:707-708, 720-721). Section 7.4 of ISO C makes that
  undefined for any value other than EOF. The model leaves such values
  unchanged, as glibc's table does.
- Compare.IsDigit, Compare.IsFloat, Compare.IsXDigitAsWritten and
  Compare.IsXDigit: under a signed `char`, bytes of 0x80 and above reach
  `isdigit`/`isxdigit` as negative values (yasli.c:1031, 1040, 1056). This
  is the same undefined behaviour under section 7.4 of ISO C. The model
  treats such bytes as non-digits, as glibc does.
- Slicing.Slice: when variable-length arrays are available, an empty range
  makes `str_slice` declare the zero-length array `char result[0]`
  (yasli.c:1289). Section 6.7.6.2 of ISO C makes a
  variable-length array of size 0 undefined. The model returns the empty
  string.
- Utf8Slicing.Utf8Sliced and Utf8Slicing.Utf8SliceShape: an empty range
  likewise declares a zero-length `info` table (yasli.c:1389, 1577), and
  `str_utf8_slice` also a zero-length result buffer (yasli.c:1654). The
  model gives the empty string or length 0.
- Slicing.Abs: `llabs(INT64_MIN)` is undefined in C (section 7.22.6.1 of
  ISO C), because 2^63 is not representable (yasli.c:1223, 1284, 1352).
  The model takes 2^63, the usual two's-complement result converted to
  `size_t`.
- Edit.Substr: requires start + size ≤ SIZE_MAX. The C guard adds the two
  `size_t` values, and a sum that wraps around would pass it.
- Edit.Removed: requires index + length ≤ SIZE_MAX, for the same wrap of
  the guard's `size_t` sum.
- Edit.Remove: the same SIZE_MAX precondition as `Edit.Removed`.
- Utf8.Utf8Substr: requires start + size ≤ SIZE_MAX. It also requires the
  string to be `Complete`: no final codepoint may be truncated, because
  otherwise the C walk reads past the terminator.
- Utf8.Utf8CharAt: requires a `Complete` string, for the same reason.
- Utf8Slicing.Utf8Sliced: requires a `Complete` string, for the same
  reason. Its reverse content is stated for the corrected copy loop; see
  Findings. An empty range with a negative step gives an empty string in
  the model. In C, line 1478 first reads `info[sub_len - 1]`, which is
  `info[SIZE_MAX]`, outside the width table
  (`Utf8Slicing.ReverseEmptyRange`).
- Edit.Split: requires a non-empty needle, because the C loop never ends
  on an empty one.
- Edit.Replaced: requires a non-empty needle, because the C loop never
  ends on an empty one.
- Edit.Concatenated: the total length is an unbounded sum. The C code adds
  `size_t` lengths, which cannot wrap for strings that exist in memory.

## Findings

| source | as written | input that shows it | evidently intended | confidence | as-written member | corrected member |
|---|---|---|---|---|---|---|
| yasli.c:1479-1490 | after copying codepoint i, the reverse copy of `str_utf8_sliced` moves the read offset back by the width of codepoint i itself (line 1486) | bytes C3 A9 61 ("é" then "a") with (YASLI_END, YASLI_START, -1) yield 61 A9 61 | step back by the width of codepoint i-1, yielding 61 C3 A9 | not executed | Utf8Slicing.ReverseCopyCounterexample | Utf8Slicing.Utf8Sliced |
| yasli.c:779-784 | the dispatch tests `la` before `la && i`, so the `str_cmp_lai` branch is unreachable | mode "lai" selects `str_cmp_la`, the case-sensitive comparator | "lai" selects `str_cmp_lai`, length then case-folded bytes | not executed | SortMode.FoldedLengthUnreachable | SortMode.Select |
| yasli.c:1038-1051 | the index-1 branch of `str_isxdigit` has no rejecting path, so the byte at index 1 is never checked | "1g" is reported as a hex string | every byte outside an optional leading "0x" must be a hex digit | not executed | Compare.IsXDigitAsWritten | Compare.IsXDigit |

=== FILE: buffer.dfy ===
/** The `string_t` record and its capacity policy (`str_resize`).

  A string owns `length` bytes plus a terminator inside a block of `capacity`
  bytes. `str_resize` sets the length and moves the capacity along a tier
  sequence: doubling while the capacity is at most 1024, then steps of 512.
  Shrinking steps down by 512 for a large target and halves for a small one,
  stopping as soon as the next step would no longer hold the string; a shrunk
  capacity can therefore leave the growth tiers (2048 shrinks to 1536, which
  halves to 768).
 */
module Buffer {
  import opened Results
  import opened Bytes

  /** Smallest capacity any string has. */
  const MIN_CAPACITY: nat := 16
  /** Capacities up to this value double; larger ones grow by TIER_STEP. */
  const TIER_LIMIT: nat := 1024
  const TIER_STEP: nat := 512

  /** The largest object size a C implementation supports. */
  const PTRDIFF_MAX: nat := 0x7FFF_FFFF_FFFF_FFFF
  /** Longest string the model admits. Any longer request would need a block
      of more than PTRDIFF_MAX bytes; no allocator grants that, so the model
      reports OutOfMemory for it. */
  const MAX_LENGTH: nat := 0x7FFF_FFFF_FFFF_FC00
  /** Largest `size_t`. */
  const SIZE_MAX: nat := 0xFFFF_FFFF_FFFF_FFFF

  datatype Str = Str(bytes: seq<byte>, capacity: nat)

  /** The record invariant: room for the terminator, at least 16 bytes, no
      NUL among the meaningful bytes, and sizes that fit a C object. */
  predicate Valid(s: Str) {
    && MIN_CAPACITY <= s.capacity <= PTRDIFF_MAX
    && |s.bytes| < s.capacity
    && |s.bytes| <= MAX_LENGTH
    && NulFree(s.bytes)
  }

  /** The capacity `str_resize` aims for: max(16, size + 1). */
  function Needed(size: nat): (cap: nat)
    ensures cap >= MIN_CAPACITY && cap > size
    ensures cap == MIN_CAPACITY || cap == size + 1
  {
    if size < 16 then 16 else size + 1
  }

  /** One step up the tier sequence. */
  function NextTier(c: nat): (r: nat)
    requires c >= 1
    ensures r > c
  {
    if c <= TIER_LIMIT then 2 * c else c + TIER_STEP
  }

  /** `t` lies on the tier sequence that starts at `c`. */
  predicate Reachable(c: nat, t: nat)
    requires c >= 1
    decreases if c < t then t - c else 0
  {
    c == t || (c < t && Reachable(NextTier(c), t))
  }

  /** The growth loop of `str_resize`: climb the tiers from `c` until `cap`
      fits. The result is the FIRST tier at or above `cap`, and it
      over-allocates by less than a doubling (small strings) or one step. */
  function Grow(c: nat, cap: nat): (r: nat)
    requires c >= 1
    ensures r >= cap && r >= c
    ensures Reachable(c, r)
    ensures forall t: nat :: Reachable(c, t) && t < r ==> t < cap
    ensures c < cap ==> (r <= 2 * TIER_LIMIT && r < 2 * cap) || r < cap + TIER_STEP
    decreases if c < cap then cap - c else 0
  {
    if c < cap then Grow(NextTier(c), cap) else c
  }

  /** The first shrink loop: for a large target, step down by 512 while the
      lower tier still leaves more than 512 bytes of headroom. */
  function ShrinkLinear(c: nat, cap: nat): (r: nat)
    requires TIER_LIMIT < cap <= c
    ensures cap <= r <= c && r <= cap + TIER_STEP
    ensures (c - r) % TIER_STEP == 0
    ensures r == c <==> c <= cap + TIER_STEP
    decreases c
  {
    if cap + TIER_STEP < c then ShrinkLinear(c - TIER_STEP, cap) else c
  }

  /** The second shrink loop: for a small target, halve (rounding down) while
      the half still holds `cap`. */
  function ShrinkHalving(c: nat, cap: nat): (r: nat)
    requires 1 <= cap <= TIER_LIMIT && cap <= c
    ensures cap <= r <= c && r < 2 * cap
    ensures r == c <==> c < 2 * cap
    decreases c
  {
    if cap * 2 <= c then ShrinkHalving(c / 2, cap) else c
  }

  /** The capacity left by `str_resize` on a string of capacity `c` resized to
      `size` bytes. */
  function NewCapacity(c: nat, size: nat): (r: nat)
    requires c >= MIN_CAPACITY
    ensures r >= Needed(size)
    ensures Needed(size) > c ==> Reachable(c, r) && forall t: nat :: Reachable(c, t) && t < r ==> t < Needed(size)
    ensures Needed(size) <= c ==> r <= c
    ensures Needed(size) <= c && Needed(size) <= TIER_LIMIT ==> r < 2 * Needed(size)
    ensures Needed(size) <= c && Needed(size) > TIER_LIMIT ==> r <= Needed(size) + TIER_STEP
  {
    var cap := Needed(size);
    if cap > c then Grow(c, cap)
    else if cap > TIER_LIMIT then ShrinkLinear(c, cap)
    else ShrinkHalving(c, cap)
  }

  /** A capacity is kept as it is exactly when it already lies in the band
      the shrink rule settles on for `cap`. */
  predicate InBand(c: nat, cap: nat) {
    && cap <= c
    && (cap <= TIER_LIMIT ==> c < 2 * cap)
    && (cap > TIER_LIMIT ==> c <= cap + TIER_STEP)
  }

  /** Hysteresis: `str_resize` reallocates (and only then writes the
      terminator itself) exactly when the capacity leaves its band. */
  lemma {:induction false} NoReallocIffInBand(c: nat, size: nat)
    requires c >= MIN_CAPACITY
    ensures NewCapacity(c, size) == c <==> InBand(c, Needed(size))
  {
    var cap := Needed(size);
    if cap > c {
      assert NewCapacity(c, size) >= cap;
    }
  }

  /** The resize never loses the record invariant, and a request of at most
      MAX_LENGTH bytes never needs a block beyond PTRDIFF_MAX. */
  lemma {:induction false} NewCapacityBounded(c: nat, size: nat)
    requires MIN_CAPACITY <= c <= PTRDIFF_MAX
    requires size <= MAX_LENGTH
    ensures size < NewCapacity(c, size) <= PTRDIFF_MAX
  {
    var cap := Needed(size);
    if cap > c {
      var r := Grow(c, cap);
      assert (r <= 2 * TIER_LIMIT && r < 2 * cap) || r < cap + TIER_STEP;
    }
  }

  /** The resize result for a string of capacity `oldCapacity` whose caller
      then fills it with `bytes`; requests above MAX_LENGTH fail. A freshly
      created string starts from capacity 16. */
  function Allocate(oldCapacity: nat, bytes: seq<byte>): (r: Result<Str>)
    requires MIN_CAPACITY <= oldCapacity <= PTRDIFF_MAX
    ensures r.Failure? <==> |bytes| > MAX_LENGTH
    ensures r.Failure? ==> r.error == OutOfMemory
    ensures r.Success? ==> r.value.bytes == bytes
    ensures r.Success? && NulFree(bytes) ==> Valid(r.value)
    ensures r.Success? ==> r.value.capacity == NewCapacity(oldCapacity, |bytes|)
  {
    if |bytes| > MAX_LENGTH then Failure(OutOfMemory)
    else
      NewCapacityBounded(oldCapacity, |bytes|);
      Success(Str(bytes, NewCapacity(oldCapacity, |bytes|)))
  }

  /** A new string holding `bytes` (`str_resize` on a NULL handle). */
  function Fresh(bytes: seq<byte>): (r: Result<Str>)
    ensures r.Failure? <==> |bytes| > MAX_LENGTH
    ensures r.Success? ==> r.value.bytes == bytes
    ensures r.Success? && NulFree(bytes) ==> Valid(r.value)
    ensures r.Success? ==> r.value.capacity == NewCapacity(MIN_CAPACITY, |bytes|)
  {
    Allocate(MIN_CAPACITY, bytes)
  }

  /** `str_new_string`: a copy of a NUL-terminated C string. */
  function NewString(src: seq<byte>): (r: Result<Str>)
    requires NulFree(src)
    ensures r.Success? <==> |src| <= MAX_LENGTH
    ensures r.Success? ==> Valid(r.value) && r.value.bytes == src
  {
    Fresh(src)
  }

  /** `str_clear`: length 0; the capacity shrinks by the usual rule. */
  function Clear(s: Str): (r: Str)
    requires Valid(s)
    ensures Valid(r) && r.bytes == []
    ensures r.capacity <= s.capacity && r.capacity < 2 * MIN_CAPACITY
  {
    Allocate(s.capacity, []).value
  }

  /** `str_reserve`: room for at least `length` bytes plus the terminator,
      with the contents kept. A request no larger than the current length
      changes nothing. */
  function Reserve(s: Str, length: nat): (r: Result<Str>)
    requires Valid(s)
    ensures r.Failure? <==> length > MAX_LENGTH
    ensures r.Success? ==> Valid(r.value) && r.value.bytes == s.bytes
    ensures r.Success? ==> r.value.capacity >= length + 1
    ensures length <= |s.bytes| ==> r == Success(s)
  {
    if length <= |s.bytes| then Success(s)
    else if length > MAX_LENGTH then Failure(OutOfMemory)
    else
      NewCapacityBounded(s.capacity, length);
      Success(Str(s.bytes, NewCapacity(s.capacity, length)))
  }

  /** Resizing a length-31 string to 32 bytes and back reallocates on every
      call: the capacity alternates 32, 64, 32. The shrink rule keeps no
      hysteresis at a tier boundary. */
  lemma {:induction false} ResizeThrashesAtTierBoundary()
    ensures NewCapacity(32, 32) == 64
    ensures NewCapacity(64, 31) == 32
  {
    assert Needed(32) == 33;
    assert Grow(64, 33) == 64;
    assert Grow(32, 33) == 64;
    assert Needed(31) == 32;
    assert ShrinkHalving(32, 32) == 32;
    assert ShrinkHalving(64, 32) == 32;
  }

  /** The growth loop climbs from 16 through 16, 32, ..., 1024, 2048 and
      then every 512 bytes: every capacity it reaches from 16 is one of
      these. A shrink can leave this set (`ShrinkLeavesGrowthTiers`). */
  lemma {:induction false} FreshTiers(t: nat)
    requires Reachable(MIN_CAPACITY, t)
    ensures t <= 2 * TIER_LIMIT ==> exists k :: 4 <= k <= 11 && t == Pow2(k)
    ensures t > 2 * TIER_LIMIT ==> (t - 2 * TIER_LIMIT) % TIER_STEP == 0
  {
    FreshTiersFrom(4, t);
  }

  /** Shrinking reaches capacities the growth loop never visits from 16:
      2048 resized to 1024 bytes steps down to 1536, and 1536 resized to 700
      bytes halves to 768. */
  lemma {:induction false} ShrinkLeavesGrowthTiers()
    ensures NewCapacity(2048, 1024) == 1536 && NewCapacity(1536, 700) == 768
    ensures !Reachable(MIN_CAPACITY, 1536) && !Reachable(MIN_CAPACITY, 768)
  {
    assert ShrinkLinear(1536, 1025) == 1536;
    assert ShrinkLinear(2048, 1025) == 1536;
    assert ShrinkHalving(768, 701) == 768;
    assert ShrinkHalving(1536, 701) == 768;
    assert !Reachable(2048, 1536) && !Reachable(1024, 768);
    assert !Reachable(1024, 1536);
    assert !Reachable(512, 1536) && !Reachable(512, 768);
    assert !Reachable(256, 1536) && !Reachable(256, 768);
    assert !Reachable(128, 1536) && !Reachable(128, 768);
    assert !Reachable(64, 1536) && !Reachable(64, 768);
    assert !Reachable(32, 1536) && !Reachable(32, 768);
  }

  function Pow2(k: nat): (r: nat)
    ensures r >= 1
  {
    if k == 0 then 1 else 2 * Pow2(k - 1)
  }

  lemma {:induction false} FreshTiersFrom(j: nat, t: nat)
    requires 4 <= j <= 11
    requires Reachable(Pow2(j), t)
    ensures t <= 2 * TIER_LIMIT ==> exists k :: j <= k <= 11 && t == Pow2(k)
    ensures t > 2 * TIER_LIMIT ==> (t - 2 * TIER_LIMIT) % TIER_STEP == 0
    decreases 11 - j
  {
    var c := Pow2(j);
    PowersUpTo11(j);
    if c == t {
    } else if j == 11 {
      assert c == 2048;
      LinearTiers(c, t);
    } else {
      assert NextTier(c) == Pow2(j + 1);
      FreshTiersFrom(j + 1, t);
    }
  }

  lemma {:induction false} PowersUpTo11(j: nat)
    requires 4 <= j <= 11
    ensures 16 <= Pow2(j) <= 2048
    ensures j < 11 ==> Pow2(j) <= TIER_LIMIT
    ensures j == 11 ==> Pow2(j) == 2048
  {
    assert Pow2(4) == 16;
    assert Pow2(11) == 2048 by {
      assert Pow2(5) == 32 && Pow2(6) == 64 && Pow2(7) == 128 && Pow2(8) == 256;
      assert Pow2(9) == 512 && Pow2(10) == 1024;
    }
    if j < 11 {
      assert Pow2(10) == 1024;
      PowMonotone(j, 10);
    }
    PowMonotone(4, j);
    PowMonotone(j, 11);
  }

  lemma {:induction false} PowMonotone(i: nat, j: nat)
    requires i <= j
    ensures Pow2(i) <= Pow2(j)
    decreases j - i
  {
    if i < j {
      PowMonotone(i, j - 1);
    }
  }

  lemma {:induction false} LinearTiers(c: nat, t: nat)
    requires c >= 2 * TIER_LIMIT && (c - 2 * TIER_LIMIT) % TIER_STEP == 0
    requires Reachable(c, t)
    ensures (t - 2 * TIER_LIMIT) % TIER_STEP == 0 && t >= c
    decreases if c < t then t - c else 0
  {
    if c != t {
      LinearTiers(c + TIER_STEP, t);
    }
  }
}

=== FILE: bytes.dfy ===
/** Byte sequences as the C library sees them.

  A `string_t` stores `length` meaningful bytes followed by a NUL terminator.
  The library copies with strcpy/strncpy and searches with strstr, all of which
  stop at the first NUL, so every string the model admits is NUL-free and the
  terminator is left implicit.
 */
module Bytes {
  import opened Results

  newtype byte = x: int | 0 <= x < 256

  /** No byte is the C string terminator. */
  predicate NulFree(s: seq<byte>) {
    forall i :: 0 <= i < |s| ==> s[i] != 0
  }

  /** The byte the C code reads at index `i` of a NUL-terminated buffer
      holding `s`: index |s| is the terminator. */
  function ByteAt(s: seq<byte>, i: nat): byte
    requires i <= |s|
  {
    if i < |s| then s[i] else 0
  }

  /** Concatenation of a sequence of sequences. */
  function Flatten<T>(xss: seq<seq<T>>): seq<T>
  {
    if |xss| == 0 then [] else xss[0] + Flatten(xss[1..])
  }

  /** `pieces` glued together with `sep` between neighbours. */
  function Join(pieces: seq<seq<byte>>, sep: seq<byte>): seq<byte>
  {
    if |pieces| == 0 then []
    else if |pieces| == 1 then pieces[0]
    else pieces[0] + sep + Join(pieces[1..], sep)
  }

  lemma {:induction false} FlattenAppend<T>(xss: seq<seq<T>>, yss: seq<seq<T>>)
    ensures Flatten(xss + yss) == Flatten(xss) + Flatten(yss)
    decreases |xss|
  {
    if |xss| == 0 {
      assert xss + yss == yss;
    } else {
      assert (xss + yss)[1..] == xss[1..] + yss;
      FlattenAppend(xss[1..], yss);
    }
  }

  lemma {:induction false} FlattenSingle<T>(xs: seq<T>)
    ensures Flatten([xs]) == xs
  {
    assert [xs][1..] == [];
  }

  /** Element j of a sequence of sequences, with what precedes and follows it. */
  lemma {:induction false} FlattenAround<T>(xss: seq<seq<T>>, j: nat)
    requires j < |xss|
    ensures Flatten(xss) == Flatten(xss[..j]) + xss[j] + Flatten(xss[j + 1..])
  {
    var left, right := xss[..j], xss[j + 1..];
    assert xss == (left + [xss[j]]) + right;
    FlattenAppend(left + [xss[j]], right);
    FlattenAppend(left, [xss[j]]);
    FlattenSingle(xss[j]);
  }

  /** Adding one more part to a prefix of `xss`. */
  lemma {:induction false} FlattenSnoc<T>(xss: seq<seq<T>>, i: nat)
    requires i < |xss|
    ensures Flatten(xss[..i + 1]) == Flatten(xss[..i]) + xss[i]
  {
    assert xss[..i + 1] == xss[..i] + [xss[i]];
    FlattenAppend(xss[..i], [xss[i]]);
    FlattenSingle(xss[i]);
  }

  lemma {:induction false} NulFreeSlice(s: seq<byte>, i: nat, j: nat)
    requires NulFree(s) && i <= j <= |s|
    ensures NulFree(s[i..j])
  {
    forall k | 0 <= k < j - i ensures s[i..j][k] != 0 {
      assert s[i..j][k] == s[i + k];
    }
  }

  lemma {:induction false} SliceOfSlice<T>(s: seq<T>, i: nat, j: nat, k: nat, l: nat)
    requires i <= j <= |s| && k <= l <= j - i
    ensures s[i..j][k..l] == s[i + k..i + l]
  {
    forall m | 0 <= m < l - k ensures s[i..j][k..l][m] == s[i + k..i + l][m] {
      assert s[i..j][k..l][m] == s[i..j][k + m];
      assert s[i..j][k + m] == s[i + k + m];
    }
  }

  lemma {:induction false} NulFreeConcat(s: seq<byte>, t: seq<byte>)
    requires NulFree(s) && NulFree(t)
    ensures NulFree(s + t)
  {
    forall k | 0 <= k < |s + t| ensures (s + t)[k] != 0 {
      if k >= |s| {
        assert (s + t)[k] == t[k - |s|];
      }
    }
  }

  lemma {:induction false} FlattenNulFree(xss: seq<seq<byte>>)
    requires forall j :: 0 <= j < |xss| ==> NulFree(xss[j])
    ensures NulFree(Flatten(xss))
    decreases |xss|
  {
    if |xss| > 0 {
      FlattenNulFree(xss[1..]);
    }
  }

  lemma {:induction false} JoinNulFree(pieces: seq<seq<byte>>, sep: seq<byte>)
    requires NulFree(sep)
    requires forall j :: 0 <= j < |pieces| ==> NulFree(pieces[j])
    ensures NulFree(Join(pieces, sep))
    decreases |pieces|
  {
    if |pieces| > 1 {
      JoinNulFree(pieces[1..], sep);
    }
  }

  /** `needle` occurs in `s` starting at byte `i`. */
  predicate OccursAt(s: seq<byte>, needle: seq<byte>, i: nat) {
    i + |needle| <= |s| && s[i..i + |needle|] == needle
  }

  /** strstr on `s` from byte `i`: the leftmost occurrence of `needle` at or
      after `i`, or None. */
  function FindFrom(s: seq<byte>, needle: seq<byte>, i: nat): (r: Option<nat>)
    requires i <= |s|
    ensures r.Some? ==> i <= r.value && OccursAt(s, needle, r.value)
    ensures r.Some? ==> forall j :: i <= j < r.value ==> !OccursAt(s, needle, j)
    ensures r.None? ==> forall j :: i <= j <= |s| ==> !OccursAt(s, needle, j)
    decreases |s| - i
  {
    if OccursAt(s, needle, i) then Some(i)
    else if i == |s| then None
    else FindFrom(s, needle, i + 1)
  }

  /** strstr on the whole of `s`. */
  function Find(s: seq<byte>, needle: seq<byte>): Option<nat>
  {
    FindFrom(s, needle, 0)
  }
}

=== FILE: compare.dfy ===
/** Comparison and classification: `str_strcmp`, `str_streq`,
  `str_start_with`, `str_end_with`, `str_has`, `str_char_at`, `str_isdigit`,
  `str_isfloat` and `str_isxdigit`.

  The C comparison loops subtract `char` values, and whether `char` is signed
  is the platform's choice; the flag `signed` selects it. The loops run up to
  and including the terminator of the shorter string, so a comparison is one
  between the byte values followed by a 0.
 */
module Compare {
  import opened Results
  import opened Bytes
  import opened Buffer

  /** The value of a `char` holding byte `c`. */
  function CharValue(c: byte, signed: bool): int {
    if signed && c >= 0x80 then c as int - 256 else c as int
  }

  /** `toupper` in the C locale: only 'a'..'z' change. */
  function Upper(v: int): int {
    if 'a' as int <= v <= 'z' as int then v - 32 else v
  }

  /** The value compared for byte `c`, upper-cased when `fold` is set. */
  function Key(c: byte, fold: bool, signed: bool): int {
    if fold then Upper(CharValue(c, signed)) else CharValue(c, signed)
  }

  /** The keys of `a` followed by the key of its terminator, 0. Each key is
      a `char` value: 0..255 for an unsigned `char`, -128..127 for a signed
      one; without folding an unsigned key is the byte itself, and a C
      string gives a terminated key sequence. */
  function Keys(a: seq<byte>, fold: bool, signed: bool): (x: seq<int>)
    ensures |x| == |a| + 1 && x[|a|] == 0
    ensures NulFree(a) ==> Terminated(x)
    ensures !signed ==> forall i :: 0 <= i < |a| ==> 0 <= x[i] < 256
    ensures signed ==> forall i :: 0 <= i < |a| ==> -128 <= x[i] < 128
    ensures !fold && !signed ==> forall i :: 0 <= i < |a| ==> x[i] == a[i] as int
  {
    seq(|a| + 1, i requires 0 <= i <= |a| => Key(ByteAt(a, i), fold, signed))
  }

  /** A C string as keys: non-zero values, then one 0. */
  predicate Terminated(x: seq<int>) {
    |x| >= 1 && x[|x| - 1] == 0 && forall i :: 0 <= i < |x| - 1 ==> x[i] != 0
  }

  lemma {:induction false} KeysTerminated(a: seq<byte>, fold: bool, signed: bool)
    requires NulFree(a)
    ensures Terminated(Keys(a, fold, signed))
  {
  }

  /** `x` and `y` first differ at index `j`. */
  predicate DiffersAt(x: seq<int>, y: seq<int>, j: nat) {
    j < |x| && j < |y| && x[..j] == y[..j] && x[j] != y[j]
  }

  /** `x` comes first: at the first difference its value is smaller. */
  ghost predicate Precedes(x: seq<int>, y: seq<int>) {
    exists j: nat :: DiffersAt(x, y, j) && x[j] < y[j]
  }

  /** The comparison loop from index `i`, over keys that agree before `i`:
      the difference at the first disagreement, or 0 when the shorter
      sequence runs out first. */
  function CompareFrom(x: seq<int>, y: seq<int>, i: nat): (r: int)
    requires i <= |x| && i <= |y| && x[..i] == y[..i]
    ensures r == 0 ==> (|x| <= |y| ==> x == y[..|x|]) && (|y| <= |x| ==> y == x[..|y|])
    ensures r != 0 ==> exists j: nat :: i <= j && DiffersAt(x, y, j) && r == x[j] - y[j]
    decreases |x| - i
  {
    if i == |x| || i == |y| then 0
    else if x[i] != y[i] then
      assert DiffersAt(x, y, i);
      x[i] - y[i]
    else
      assert x[..i + 1] == y[..i + 1] by {
        assert x[..i + 1] == x[..i] + [x[i]];
        assert y[..i + 1] == y[..i] + [y[i]];
      }
      CompareFrom(x, y, i + 1)
  }

  /** Two sequences first differ in at most one place. */
  lemma {:induction false} DiffersOnce(x: seq<int>, y: seq<int>, j: nat, k: nat)
    requires DiffersAt(x, y, j) && DiffersAt(x, y, k)
    ensures j == k
  {

  }

  /** First-difference order is transitive. */
  lemma {:induction false} PrecedesTransitive(x: seq<int>, y: seq<int>, z: seq<int>)
    requires Precedes(x, y) && Precedes(y, z)
    ensures Precedes(x, z)
  {
    var j: nat :| DiffersAt(x, y, j) && x[j] < y[j];
    var k: nat :| DiffersAt(y, z, k) && y[k] < z[k];
    if j <= k {
      assert y[..k][..j] == y[..j] && z[..k][..j] == z[..j];
      if j < k {
        assert y[..k][j] == z[..k][j];
      }
      assert DiffersAt(x, z, j) && x[j] < z[j];
    } else {
      assert x[..j][..k] == x[..k] && y[..j][..k] == y[..k];
      assert x[..j][k] == y[..j][k];
      assert DiffersAt(x, z, k) && x[k] < z[k];
    }
  }

  /** The sign of the loop's answer is the order of the first difference. */
  lemma {:induction false} CompareSign(x: seq<int>, y: seq<int>)
    ensures CompareFrom(x, y, 0) < 0 <==> Precedes(x, y)
    ensures CompareFrom(x, y, 0) > 0 <==> Precedes(y, x)
  {
    var r := CompareFrom(x, y, 0);
    if Precedes(x, y) {
      var j: nat :| DiffersAt(x, y, j) && x[j] < y[j];
      NonZeroAtDifference(x, y, j);
    }
    if Precedes(y, x) {
      var j: nat :| DiffersAt(y, x, j) && y[j] < x[j];
      assert DiffersAt(x, y, j);
      NonZeroAtDifference(x, y, j);
    }
    if r != 0 {
      var j: nat :| DiffersAt(x, y, j) && r == x[j] - y[j];
      assert DiffersAt(y, x, j);
    }
  }

  /** When `x` and `y` first differ at `j`, the loop reports that difference. */
  lemma {:induction false} NonZeroAtDifference(x: seq<int>, y: seq<int>, j: nat)
    requires DiffersAt(x, y, j)
    ensures CompareFrom(x, y, 0) == x[j] - y[j]
  {
    var r := CompareFrom(x, y, 0);
    if r != 0 {
      var k: nat :| DiffersAt(x, y, k) && r == x[k] - y[k];
      DiffersOnce(x, y, j, k);
    }
  }

  /** On two C strings the loop answers 0 exactly when they are equal. */
  lemma {:induction false} CompareZero(x: seq<int>, y: seq<int>)
    requires Terminated(x) && Terminated(y)
    ensures CompareFrom(x, y, 0) == 0 <==> x == y
  {
  }

  /** The loop of `str_strcmp` and of the sort comparators `str_cmp_a` and
      `str_cmp_ai`, `fold` selecting the upper-casing of the latter. */
  function CompareBytes(a: seq<byte>, b: seq<byte>, fold: bool, signed: bool): (r: int)
    requires NulFree(a) && NulFree(b)
    ensures r == 0 <==> Keys(a, fold, signed) == Keys(b, fold, signed)
    ensures r < 0 <==> Precedes(Keys(a, fold, signed), Keys(b, fold, signed))
    ensures r > 0 <==> Precedes(Keys(b, fold, signed), Keys(a, fold, signed))
  {
    var x, y := Keys(a, fold, signed), Keys(b, fold, signed);
    KeysTerminated(a, fold, signed);
    KeysTerminated(b, fold, signed);
    CompareSign(x, y);
    CompareZero(x, y);
    CompareFrom(x, y, 0)
  }

  /** Swapping the arguments negates the answer. */
  lemma {:induction false} CompareFromSwap(x: seq<int>, y: seq<int>, i: nat)
    requires i <= |x| && i <= |y| && x[..i] == y[..i]
    ensures CompareFrom(x, y, i) == -CompareFrom(y, x, i)
    decreases |x| - i
  {
    if i < |x| && i < |y| && x[i] == y[i] {
      assert x[..i + 1] == x[..i] + [x[i]];
      assert y[..i + 1] == y[..i] + [y[i]];
      CompareFromSwap(x, y, i + 1);
    }
  }

  lemma {:induction false} CompareAntisymmetric(a: seq<byte>, b: seq<byte>, fold: bool, signed: bool)
    requires NulFree(a) && NulFree(b)
    ensures CompareBytes(a, b, fold, signed) == -CompareBytes(b, a, fold, signed)
  {
    CompareFromSwap(Keys(a, fold, signed), Keys(b, fold, signed), 0);
  }

  /** Without case folding every byte has its own key. */
  lemma {:induction false} KeysInjective(a: seq<byte>, b: seq<byte>, signed: bool)
    ensures Keys(a, false, signed) == Keys(b, false, signed) <==> a == b
  {
    if Keys(a, false, signed) == Keys(b, false, signed) {
      forall i | 0 <= i < |a| ensures a[i] == b[i] {
        assert Keys(a, false, signed)[i] == Keys(b, false, signed)[i];
      }
    }
  }

  /** `str_strcmp`: 0 exactly for equal strings; negative exactly when the
      first string comes first by `char` value. */
  function Strcmp(s1: Str, s2: Str, signed: bool): (r: int)
    requires Valid(s1) && Valid(s2)
    ensures r == 0 <==> s1.bytes == s2.bytes
    ensures r < 0 <==> Precedes(Keys(s1.bytes, false, signed), Keys(s2.bytes, false, signed))
    ensures r == -CompareBytes(s2.bytes, s1.bytes, false, signed)
  {
    KeysInjective(s1.bytes, s2.bytes, signed);
    CompareAntisymmetric(s1.bytes, s2.bytes, false, signed);
    CompareBytes(s1.bytes, s2.bytes, false, signed)
  }

  /** Byte-by-byte dictionary order: a proper prefix comes first, otherwise
      the smaller byte at the first difference. */
  ghost predicate ByteLess(a: seq<byte>, b: seq<byte>) {
    || (|a| < |b| && a == b[..|a|])
    || exists j: nat :: j < |a| && j < |b| && a[..j] == b[..j] && a[j] < b[j]
  }

  /** With unsigned `char`, `str_strcmp` orders strings in dictionary order
      of their bytes. */
  lemma {:induction false} UnsignedStrcmpIsDictionaryOrder(s1: Str, s2: Str)
    requires Valid(s1) && Valid(s2)
    ensures Strcmp(s1, s2, false) < 0 <==> ByteLess(s1.bytes, s2.bytes)
  {
    var a, b := s1.bytes, s2.bytes;
    var x, y := Keys(a, false, false), Keys(b, false, false);
    if Precedes(x, y) {
      var j: nat :| DiffersAt(x, y, j) && x[j] < y[j];
      PrefixKeys(a, b, j);
      if j < |a| && j < |b| {
        assert a[j] < b[j];
      } else {
        assert j == |a| && j < |b|;
        assert a == b[..|a|];
      }
    }
    if ByteLess(a, b) {
      if |a| < |b| && a == b[..|a|] {
        assert x[..|a|] == y[..|a|];
        assert DiffersAt(x, y, |a|);
      } else {
        var j: nat :| j < |a| && j < |b| && a[..j] == b[..j] && a[j] < b[j];
        assert x[..j] == y[..j];
        assert DiffersAt(x, y, j);
      }
    }
  }

  /** Keys that agree on a prefix come from bytes that agree on it. */
  lemma {:induction false} PrefixKeys(a: seq<byte>, b: seq<byte>, j: nat)
    requires j <= |a| && j <= |b|
    requires Keys(a, false, false)[..j] == Keys(b, false, false)[..j]
    ensures a[..j] == b[..j]
  {
    forall i | 0 <= i < j ensures a[i] == b[i] {
      assert Keys(a, false, false)[..j][i] == Keys(b, false, false)[..j][i];
    }
  }

  /** `str_streq`: lengths first, then every byte. */
  method Streq(s1: Str, s2: Str) returns (eq: bool)
    ensures eq <==> s1.bytes == s2.bytes
  {
    var a, b := s1.bytes, s2.bytes;
    if |a| != |b| {
      return false;
    }
    var i := 0;
    while i < |a|
      invariant 0 <= i <= |a|
      invariant a[..i] == b[..i]
    {
      if a[i] != b[i] {
        return false;
      }
      assert a[..i + 1] == a[..i] + [a[i]];
      assert b[..i + 1] == b[..i] + [b[i]];
      i := i + 1;
    }
    assert a == a[..i] && b == b[..i];
    return true;
  }

  /** `str_start_with`: `s` is `prefix` followed by something. */
  function StartWith(s: Str, prefix: seq<byte>): (r: bool)
    requires NulFree(prefix)
    ensures r <==> |prefix| <= |s.bytes| && s.bytes == prefix + s.bytes[|prefix|..]
  {
    if |s.bytes| < |prefix| then false
    else
      assert s.bytes == s.bytes[..|prefix|] + s.bytes[|prefix|..];
      s.bytes[..|prefix|] == prefix
  }

  /** `str_end_with`: `s` is something followed by `suffix`. */
  function EndWith(s: Str, suffix: seq<byte>): (r: bool)
    requires NulFree(suffix)
    ensures r <==> |suffix| <= |s.bytes| && s.bytes == s.bytes[..|s.bytes| - |suffix|] + suffix
  {
    if |s.bytes| < |suffix| then false
    else
      var cut := |s.bytes| - |suffix|;
      assert s.bytes == s.bytes[..cut] + s.bytes[cut..];
      s.bytes[cut..] == suffix
  }

  /** A string built as `p + q` starts with `p` and ends with `q`, and a
      prefix is found by `str_has` at byte 0. */
  lemma {:induction false} AffixesOfConcatenation(s: Str, p: seq<byte>, q: seq<byte>)
    requires s.bytes == p + q && NulFree(p) && NulFree(q)
    ensures StartWith(s, p) && EndWith(s, q)
    ensures Find(s.bytes, p) == Some(0)
  {
    assert s.bytes[..|p|] == p;
  }

  /** `str_has`: strstr finds `needle` somewhere; an empty needle is always
      found. */
  function Has(s: Str, needle: seq<byte>): (r: bool)
    requires NulFree(s.bytes) && NulFree(needle)
    ensures r <==> exists i :: 0 <= i <= |s.bytes| && OccursAt(s.bytes, needle, i)
  {
    Find(s.bytes, needle).Some?
  }

  /** `str_char_at`: the byte at `index`, first overwritten with `newVal`
      unless that is 0; an index past the end reads 0 and changes nothing. */
  function CharAt(s: Str, index: nat, newVal: byte): (r: (Str, byte))
    requires Valid(s)
    ensures Valid(r.0) && r.0.capacity == s.capacity && |r.0.bytes| == |s.bytes|
    ensures index >= |s.bytes| ==> r == (s, 0)
    ensures index < |s.bytes| ==> r.1 != 0 && r.0.bytes[index] == r.1
    ensures index < |s.bytes| && newVal == 0 ==> r == (s, s.bytes[index])
    ensures newVal != 0 && index < |s.bytes| ==> r.1 == newVal
    ensures forall i :: 0 <= i < |s.bytes| && i != index ==> r.0.bytes[i] == s.bytes[i]
  {
    if index >= |s.bytes| then (s, 0)
    else if newVal != 0 then
      var t := s.(bytes := s.bytes[index := newVal]);
      (t, newVal)
    else (s, s.bytes[index])
  }

  /** Writing back the byte just read leaves the string as it was; a byte
      written is the byte read next. */
  lemma {:induction false} CharAtReadWrite(s: Str, index: nat, v: byte)
    requires Valid(s) && index < |s.bytes|
    ensures CharAt(s, index, CharAt(s, index, 0).1) == (s, s.bytes[index])
    ensures v != 0 ==> CharAt(CharAt(s, index, v).0, index, 0).1 == v
  {
    assert s.bytes[index := s.bytes[index]] == s.bytes;
  }

  // ---------------------------------------------------------- classification

  predicate Digit(c: byte) {
    '0' as int <= c as int <= '9' as int
  }

  predicate HexDigit(c: byte) {
    || Digit(c)
    || 'a' as int <= c as int <= 'f' as int
    || 'A' as int <= c as int <= 'F' as int
  }

  const DOT: byte := '.' as int as byte

  /** `str_isdigit`: every byte is a decimal digit; the empty string passes. */
  method IsDigit(s: Str) returns (r: bool)
    ensures r <==> forall i :: 0 <= i < |s.bytes| ==> Digit(s.bytes[i])
  {
    var i := 0;
    while i < |s.bytes|
      invariant 0 <= i <= |s.bytes|
      invariant forall k :: 0 <= k < i ==> Digit(s.bytes[k])
    {
      if !Digit(s.bytes[i]) {
        return false;
      }
      i := i + 1;
    }
    return true;
  }

  /** The bytes `str_isfloat` accepts: digits with at most one dot, no sign
      and no exponent; the empty string and "." pass. */
  predicate FloatShaped(b: seq<byte>) {
    && (forall i :: 0 <= i < |b| ==> Digit(b[i]) || b[i] == DOT)
    && multiset(b)[DOT] <= 1
  }

  /** `str_isfloat`. */
  method IsFloat(s: Str) returns (r: bool)
    ensures r <==> FloatShaped(s.bytes)
  {
    var b := s.bytes;
    var dot := false;
    var i := 0;
    while i < |b|
      invariant 0 <= i <= |b|
      invariant forall k :: 0 <= k < i ==> Digit(b[k]) || b[k] == DOT
      invariant multiset(b[..i])[DOT] == if dot then 1 else 0
    {
      assert b[..i + 1] == b[..i] + [b[i]];
      if !Digit(b[i]) {
        if b[i] == DOT {
          if dot {
            assert b == b[..i + 1] + b[i + 1..];
            return false;
          }
          dot := true;
        } else {
          return false;
        }
      }
      i := i + 1;
    }
    assert b[..i] == b;
    return true;
  }

  /** What `str_isxdigit` accepts as written: the byte at index 1 is never
      checked, because the branch for index 1 falls through instead of
      rejecting. */
  predicate HexShapedAsWritten(b: seq<byte>) {
    forall i :: 0 <= i < |b| && i != 1 ==> HexDigit(b[i])
  }

  /** `str_isxdigit` as the source has it. */
  method IsXDigitAsWritten(s: Str) returns (r: bool)
    ensures r <==> HexShapedAsWritten(s.bytes)
  {
    var b := s.bytes;
    var i := 0;
    while i < |b|
      invariant 0 <= i <= |b|
      invariant forall k :: 0 <= k < i && k != 1 ==> HexDigit(b[k])
    {
      if !HexDigit(b[i]) {
        if i == 1 {
          if (b[i] == 'x' as int as byte || b[i] == 'X' as int as byte) && b[0] == '0' as int as byte {
            i := i + 1;
            continue;
          }
        } else {
          return false;
        }
      }
      i := i + 1;
    }
    return true;
  }

  /** A hex integer: hex digits, with an optional "0x" or "0X" prefix. */
  predicate HexShaped(b: seq<byte>) {
    forall i :: 0 <= i < |b| ==>
      || HexDigit(b[i])
      || (i == 1 && (b[1] == 'x' as int as byte || b[1] == 'X' as int as byte) && b[0] == '0' as int as byte)
  }

  /** `str_isxdigit` with the index-1 branch rejecting anything but the
      prefix letter. */
  method IsXDigit(s: Str) returns (r: bool)
    ensures r <==> HexShaped(s.bytes)
  {
    var b := s.bytes;
    var i := 0;
    while i < |b|
      invariant 0 <= i <= |b|
      invariant forall k :: 0 <= k < i ==>
        || HexDigit(b[k])
        || (k == 1 && (b[1] == 'x' as int as byte || b[1] == 'X' as int as byte) && b[0] == '0' as int as byte)
    {
      if !HexDigit(b[i]) {
        if !(i == 1 && (b[i] == 'x' as int as byte || b[i] == 'X' as int as byte) && b[0] == '0' as int as byte) {
          return false;
        }
      }
      i := i + 1;
    }
    return true;
  }

  /** "1g" passes the check as written although 'g' is no hex digit; the
      corrected check rejects it and still accepts "0x1f". */
  lemma {:induction false} XDigitIndexOne()
    ensures HexShapedAsWritten([0x31, 0x67]) && !HexShaped([0x31, 0x67])
    ensures HexShaped([0x30, 0x78, 0x31, 0x66])
  {
    var b: seq<byte> := [0x31, 0x67];
    assert !HexDigit(b[1]);
  }

  /** The two checks agree on every string whose second byte is a hex digit. */
  lemma {:induction false} XDigitAgreesElsewhere(b: seq<byte>)
    requires |b| >= 2 ==> HexDigit(b[1])
    ensures HexShapedAsWritten(b) <==> HexShaped(b)
  {
    if HexShapedAsWritten(b) {
      forall i | 0 <= i < |b| ensures HexDigit(b[i]) {
      }
    }
  }
}

=== FILE: edit.dfy ===
/** Byte-level edits: substrings, insertion, removal, stripping,
  concatenation, splitting and replacement.

  The `-ed` forms build a new string, whose capacity follows the resize policy
  from a fresh 16-byte block; the in-place forms resize the string they are
  given, so their capacity follows the policy from its old capacity. C strings
  passed in (`const char *`) are NUL-free byte sequences, and variadic or
  NULL-terminated argument lists are sequences.
 */
module Edit {
  import opened Results
  import opened Bytes
  import opened Buffer

  // ------------------------------------------------------------------ substr

  /** `str_substr`: the `size` bytes from byte `start`. The C guard adds two
      `size_t` values; a sum past SIZE_MAX would wrap and slip through, so the
      model asks callers not to pass one. */
  function Substr(s: Str, start: nat, size: nat): (r: Result<Str>)
    requires Valid(s)
    requires start + size <= SIZE_MAX
    ensures r.Failure? <==> start + size > |s.bytes|
    ensures r.Failure? ==> r.error == OutOfBounds
    ensures r.Success? ==> Valid(r.value) && |r.value.bytes| == size
    ensures r.Success? ==> s.bytes == s.bytes[..start] + r.value.bytes + s.bytes[start + size..]
  {
    if start + size > |s.bytes| then Failure(OutOfBounds)
    else
      NulFreeSlice(s.bytes, start, start + size);
      Fresh(s.bytes[start..start + size])
  }

  // ------------------------------------------------------------------ insert

  /** `str_inserted_cstr`: `ins` placed before byte `index`; an index past the
      end is rejected. */
  function Inserted(s: Str, index: nat, ins: seq<byte>): (r: Result<Str>)
    requires Valid(s) && NulFree(ins)
    ensures r.Failure? <==> index > |s.bytes| || |s.bytes| + |ins| > MAX_LENGTH
    ensures index > |s.bytes| ==> r == Failure(OutOfBounds)
    ensures r.Success? ==> Valid(r.value) && |r.value.bytes| == |s.bytes| + |ins|
    ensures r.Success? ==>
      && r.value.bytes[..index] == s.bytes[..index]
      && r.value.bytes[index..index + |ins|] == ins
      && r.value.bytes[index + |ins|..] == s.bytes[index..]
  {
    if index > |s.bytes| then Failure(OutOfBounds)
    else
      var b := s.bytes[..index] + ins + s.bytes[index..];
      assert b[..index] == s.bytes[..index];
      assert b[index..index + |ins|] == ins;
      assert b[index + |ins|..] == s.bytes[index..];
      NulFreeSlice(s.bytes, 0, index);
      NulFreeSlice(s.bytes, index, |s.bytes|);
      NulFreeConcat(s.bytes[..index], ins);
      NulFreeConcat(s.bytes[..index] + ins, s.bytes[index..]);
      Fresh(b)
  }

  /** `str_insert_cstr`: the same bytes as `Inserted`, written into `s`. */
  function Insert(s: Str, index: nat, ins: seq<byte>): (r: Result<Str>)
    requires Valid(s) && NulFree(ins)
    ensures r.Success? <==> Inserted(s, index, ins).Success?
    ensures r.Failure? ==> r.error == Inserted(s, index, ins).error
    ensures r.Success? ==> Valid(r.value) && r.value.bytes == Inserted(s, index, ins).value.bytes
    ensures r.Success? ==> r.value.capacity == NewCapacity(s.capacity, |r.value.bytes|)
  {
    var made :- Inserted(s, index, ins);
    Allocate(s.capacity, made.bytes)
  }

  // ------------------------------------------------------------------ remove

  /** `str_removed`: `s` without the `length` bytes from byte `index`. A NULL
      string and a run past the end are rejected; as in `Substr`, the guard's
      sum must not wrap. */
  function Removed(src: Option<Str>, index: nat, length: nat): (r: Result<Str>)
    requires src.Some? ==> Valid(src.value)
    requires index + length <= SIZE_MAX
    ensures src.None? ==> r == Failure(NullInput)
    ensures src.Some? ==> (r.Failure? <==> index + length > |src.value.bytes|)
    ensures src.Some? && r.Failure? ==> r.error == OutOfBounds
    ensures r.Success? ==> Valid(r.value) && |r.value.bytes| == |src.value.bytes| - length
    ensures r.Success? ==>
      src.value.bytes == r.value.bytes[..index] + src.value.bytes[index..index + length] + r.value.bytes[index..]
  {
    if src.None? then Failure(NullInput)
    else
      var b := src.value.bytes;
      if index + length > |b| then Failure(OutOfBounds)
      else
        var kept := b[..index] + b[index + length..];
        assert kept[..index] == b[..index];
        assert kept[index..] == b[index + length..];
        assert b == b[..index] + b[index..index + length] + b[index + length..];
        NulFreeSlice(b, 0, index);
        NulFreeSlice(b, index + length, |b|);
        NulFreeConcat(b[..index], b[index + length..]);
        Fresh(kept)
  }

  /** `str_remove`: the same bytes as `Removed`, written into the string. */
  function Remove(src: Option<Str>, index: nat, length: nat): (r: Result<Str>)
    requires src.Some? ==> Valid(src.value)
    requires index + length <= SIZE_MAX
    ensures r.Success? <==> Removed(src, index, length).Success?
    ensures r.Failure? ==> r.error == Removed(src, index, length).error
    ensures r.Success? ==> Valid(r.value) && r.value.bytes == Removed(src, index, length).value.bytes
    ensures r.Success? ==> r.value.capacity == NewCapacity(src.value.capacity, |r.value.bytes|)
  {
    var made :- Removed(src, index, length);
    Allocate(src.value.capacity, made.bytes)
  }

  /** Removing what was just inserted gives the original bytes back. */
  lemma {:induction false} InsertThenRemove(s: Str, index: nat, ins: seq<byte>)
    requires Valid(s) && NulFree(ins)
    requires Inserted(s, index, ins).Success?
    requires index + |ins| <= SIZE_MAX
    ensures Removed(Some(Inserted(s, index, ins).value), index, |ins|).Success?
    ensures Removed(Some(Inserted(s, index, ins).value), index, |ins|).value.bytes == s.bytes
  {
    var t := Inserted(s, index, ins).value.bytes;
    var r := Removed(Some(Inserted(s, index, ins).value), index, |ins|).value.bytes;
    assert r[..index] == t[..index] == s.bytes[..index];
    assert r[index..] == t[index + |ins|..] == s.bytes[index..];
    assert s.bytes == s.bytes[..index] + s.bytes[index..];
  }

  /** Inserting the removed run where it was gives the original bytes back. */
  lemma {:induction false} RemoveThenInsert(s: Str, index: nat, length: nat)
    requires Valid(s)
    requires index + length <= |s.bytes|
    ensures Removed(Some(s), index, length).Success?
    ensures Inserted(Removed(Some(s), index, length).value, index, s.bytes[index..index + length]).Success?
    ensures Inserted(Removed(Some(s), index, length).value, index, s.bytes[index..index + length]).value.bytes
         == s.bytes
  {
    var b := s.bytes;
    var run := b[index..index + length];
    var r := Removed(Some(s), index, length).value;
    NulFreeSlice(b, index, index + length);
    var t := Inserted(r, index, run).value.bytes;
    assert t == t[..index] + t[index..index + length] + t[index + length..];
  }

  // ------------------------------------------------------------------- strip

  /** Every byte of `p` belongs to the strip set, the bytes of `needle`. */
  predicate AllIn(p: seq<byte>, needle: seq<byte>) {
    forall i :: 0 <= i < |p| ==> p[i] in needle
  }

  /** Neither end of `c` could be stripped. */
  predicate Trimmed(c: seq<byte>, needle: seq<byte>) {
    |c| == 0 || (c[0] !in needle && c[|c| - 1] !in needle)
  }

  /** `c` is `b` less a prefix of `l` strip-set bytes and a suffix of
      strip-set bytes. */
  predicate CoreAt(b: seq<byte>, needle: seq<byte>, c: seq<byte>, l: nat) {
    && l + |c| <= |b|
    && AllIn(b[..l], needle)
    && b[l..l + |c|] == c
    && AllIn(b[l + |c|..], needle)
  }

  /** The left loop of `str_stripped`: how many leading bytes are in the
      strip set. */
  function LeadCount(b: seq<byte>, needle: seq<byte>): (n: nat)
    ensures n <= |b| && AllIn(b[..n], needle)
    ensures n < |b| ==> b[n] !in needle
  {
    if |b| == 0 || b[0] !in needle then 0
    else
      var n := LeadCount(b[1..], needle);
      assert b[..n + 1] == [b[0]] + b[1..][..n];
      n + 1
  }

  /** The right loop: strip-set bytes at indexes i, i - 1, ..., counted down
      to index 1; the loop never looks at index 0. */
  function TrailCount(b: seq<byte>, needle: seq<byte>, i: nat): (n: nat)
    requires i < |b|
    ensures n <= i
    ensures AllIn(b[i + 1 - n..i + 1], needle)
    ensures n < i ==> b[i - n] !in needle
    decreases i
  {
    if i == 0 || b[i] !in needle then 0
    else
      var n := TrailCount(b, needle, i - 1);
      assert b[i - n..i + 1] == b[i - n..i] + [b[i]];
      n + 1
  }

  /** What `str_stripped` keeps of `b`: all of it when every byte is in the
      strip set is the empty string. */
  function StripCore(b: seq<byte>, needle: seq<byte>): (c: seq<byte>)
    ensures Trimmed(c, needle)
    ensures CoreAt(b, needle, c, LeadCount(b, needle))
  {
    var l := LeadCount(b, needle);
    if l == |b| then
      assert b[l..] == [];
      []
    else
      var t := TrailCount(b, needle, |b| - 1);
      var c := b[l..|b| - t];
      assert b[l + |c|..] == b[|b| - t..|b|];
      c
  }

  /** The leading strip-set run is exactly `l` bytes when byte `l` is not in
      the set. */
  lemma {:induction false} LeadCountIs(b: seq<byte>, needle: seq<byte>, l: nat)
    requires l <= |b| && AllIn(b[..l], needle)
    requires l < |b| ==> b[l] !in needle
    ensures LeadCount(b, needle) == l
  {
    var n := LeadCount(b, needle);
  }

  /** The strip result is the only trimmed string that `b` reduces to by
      dropping strip-set bytes at both ends. */
  lemma {:induction false} StripCoreUnique(b: seq<byte>, needle: seq<byte>, c: seq<byte>, l: nat)
    requires CoreAt(b, needle, c, l) && Trimmed(c, needle)
    ensures StripCore(b, needle) == c
  {
    if |c| == 0 {
      forall i | 0 <= i < |b| ensures b[i] in needle {
        if i < l {
          assert b[..l][i] == b[i];
        } else {
          assert b[l..][i - l] == b[i];
        }
      }
      assert b[..|b|] == b;
      LeadCountIs(b, needle, |b|);
    } else {
      assert c[0] == b[l];
      LeadCountIs(b, needle, l);
      var e := l + |c|;
      var t := TrailCount(b, needle, |b| - 1);
      assert c[|c| - 1] == b[e - 1];
    }
  }

  /** Stripping twice strips nothing more. */
  lemma {:induction false} StripIdempotent(b: seq<byte>, needle: seq<byte>)
    ensures StripCore(StripCore(b, needle), needle) == StripCore(b, needle)
  {
    var c := StripCore(b, needle);
    assert c[..0] == [] && c[0..|c|] == c && c[|c|..] == [];
    StripCoreUnique(c, needle, c, 0);
  }

  /** `str_stripped`: a new string without the leading and trailing bytes
      that occur in `needle`. */
  function Stripped(s: Str, needle: seq<byte>): (r: Str)
    requires Valid(s) && NulFree(needle)
    ensures Valid(r) && Trimmed(r.bytes, needle)
    ensures exists l :: CoreAt(s.bytes, needle, r.bytes, l)
  {
    var c := StripCore(s.bytes, needle);
    var l := LeadCount(s.bytes, needle);
    NulFreeSlice(s.bytes, l, l + |c|);
    Fresh(c).value
  }

  /** `str_strip`: the same bytes as `Stripped`, written into `s`. */
  function Strip(s: Str, needle: seq<byte>): (r: Str)
    requires Valid(s) && NulFree(needle)
    ensures Valid(r) && r.bytes == Stripped(s, needle).bytes
    ensures r.capacity == NewCapacity(s.capacity, |r.bytes|)
  {
    Allocate(s.capacity, Stripped(s, needle).bytes).value
  }

  // ----------------------------------------------------------- concatenation

  /** `str_new_strings`, `str_new_string_arr`, `str_appendeds`,
      `str_appended_cstrs`, `str_appended` and `str_appended_cstr`: a new
      string holding `parts` one after another. The first loop sums the
      lengths; the second copies each part at the running offset. */
  method Concatenated(parts: seq<seq<byte>>) returns (r: Result<Str>)
    requires forall j :: 0 <= j < |parts| ==> NulFree(parts[j])
    ensures r.Failure? <==> |Flatten(parts)| > MAX_LENGTH
    ensures r.Success? ==> Valid(r.value) && r.value.bytes == Flatten(parts)
    ensures r.Success? ==> r.value.capacity == NewCapacity(MIN_CAPACITY, |r.value.bytes|)
  {
    var length := 0;
    var i := 0;
    while i < |parts|
      invariant 0 <= i <= |parts|
      invariant length == |Flatten(parts[..i])|
    {
      FlattenSnoc(parts, i);
      length := length + |parts[i]|;
      i := i + 1;
    }
    assert parts[..|parts|] == parts;
    if length > MAX_LENGTH {
      return Failure(OutOfMemory);
    }
    var buf: seq<byte> := [];
    i := 0;
    while i < |parts|
      invariant 0 <= i <= |parts|
      invariant buf == Flatten(parts[..i])
    {
      FlattenSnoc(parts, i);
      buf := buf + parts[i];
      i := i + 1;
    }
    FlattenNulFree(parts);
    r := Fresh(buf);
  }

  /** `str_append`, `str_append_cstr`, `str_appends` and `str_append_cstrs`:
      `rest` added at the end of `s`, which is resized from its own capacity. */
  method Append(s: Str, rest: seq<seq<byte>>) returns (r: Result<Str>)
    requires Valid(s)
    requires forall j :: 0 <= j < |rest| ==> NulFree(rest[j])
    ensures r.Failure? <==> |s.bytes| + |Flatten(rest)| > MAX_LENGTH
    ensures r.Success? ==> Valid(r.value) && r.value.bytes == s.bytes + Flatten(rest)
    ensures r.Success? ==> r.value.capacity == NewCapacity(s.capacity, |r.value.bytes|)
  {
    var length := |s.bytes|;
    var i := 0;
    while i < |rest|
      invariant 0 <= i <= |rest|
      invariant length == |s.bytes| + |Flatten(rest[..i])|
    {
      FlattenSnoc(rest, i);
      length := length + |rest[i]|;
      i := i + 1;
    }
    assert rest[..|rest|] == rest;
    if length > MAX_LENGTH {
      return Failure(OutOfMemory);
    }
    var buf := s.bytes;
    i := 0;
    while i < |rest|
      invariant 0 <= i <= |rest|
      invariant buf == s.bytes + Flatten(rest[..i])
    {
      FlattenSnoc(rest, i);
      buf := buf + rest[i];
      i := i + 1;
    }
    FlattenNulFree(rest);
    NulFreeConcat(s.bytes, Flatten(rest));
    r := Allocate(s.capacity, buf);
  }

  // ------------------------------------------------------- split and replace

  /** `needle` occurs nowhere in `p`. */
  predicate Lacks(p: seq<byte>, needle: seq<byte>) {
    forall k :: 0 <= k <= |p| ==> !OccursAt(p, needle, k)
  }

  /** The pieces of `b[i..]` between the occurrences of `needle` that strstr
      finds, each search starting right after the previous match. */
  function PiecesFrom(b: seq<byte>, needle: seq<byte>, i: nat): (ps: seq<seq<byte>>)
    requires |needle| > 0 && i <= |b|
    ensures |ps| >= 1
    ensures Join(ps, needle) == b[i..]
    ensures forall k :: 0 <= k < |ps| ==> Lacks(ps[k], needle)
    ensures forall k :: 0 <= k < |ps| - 1 ==> Lacks(ps[k] + needle[..|needle| - 1], needle)
    ensures forall k :: 0 <= k < |ps| ==> |ps[k]| <= |b| - i
    decreases |b| - i
  {
    match FindFrom(b, needle, i)
    case None =>
      forall k | 0 <= k <= |b[i..]| ensures !OccursAt(b[i..], needle, k) {
        if OccursAt(b[i..], needle, k) {
          SliceOfSlice(b, i, |b|, k, k + |needle|);
          assert OccursAt(b, needle, i + k);
        }
      }
      [b[i..]]
    case Some(j) =>
      var rest := PiecesFrom(b, needle, j + |needle|);
      var piece := b[i..j];
      LeadingPiece(b, needle, i, j);
      assert b[i..] == piece + needle + b[j + |needle|..];
      var ps := [piece] + rest;
      assert ps[1..] == rest;
      ps
  }

  /** The piece before the first match from `i`, even with all but the last
      byte of the match after it, holds no occurrence. */
  lemma {:induction false} LeadingPiece(b: seq<byte>, needle: seq<byte>, i: nat, j: nat)
    requires |needle| > 0 && i <= j
    requires OccursAt(b, needle, j)
    requires forall p :: i <= p < j ==> !OccursAt(b, needle, p)
    ensures Lacks(b[i..j], needle)
    ensures Lacks(b[i..j] + needle[..|needle| - 1], needle)
  {
    var n := |needle|;
    var x := b[i..j] + needle[..n - 1];
    assert x == b[i..j + n - 1];
    forall k | 0 <= k <= |x| ensures !OccursAt(x, needle, k) {
      if OccursAt(x, needle, k) {
        SliceOfSlice(b, i, j + n - 1, k, k + n);
        assert OccursAt(b, needle, i + k);
      }
    }
    forall k | 0 <= k <= j - i ensures !OccursAt(b[i..j], needle, k) {
      if OccursAt(b[i..j], needle, k) {
        SliceOfSlice(b, i, j, k, k + n);
        assert OccursAt(b, needle, i + k);
      }
    }
  }

  function Pieces(b: seq<byte>, needle: seq<byte>): seq<seq<byte>>
    requires |needle| > 0
  {
    PiecesFrom(b, needle, 0)
  }

  function BytesOf(ss: seq<Str>): (r: seq<seq<byte>>)
    ensures |r| == |ss| && forall k :: 0 <= k < |ss| ==> r[k] == ss[k].bytes
  {
    seq(|ss|, k requires 0 <= k < |ss| => ss[k].bytes)
  }

  /** `str_split`: one new string per piece. The pieces joined with `needle`
      give back `s`; no piece contains `needle`, and no match starts inside a
      piece other than the last, so the matches are the leftmost
      non-overlapping ones. An empty needle makes the C loop run forever. */
  function Split(s: Str, needle: seq<byte>): (r: seq<Str>)
    requires Valid(s) && NulFree(needle) && |needle| > 0
    ensures |r| >= 1
    ensures Join(BytesOf(r), needle) == s.bytes
    ensures forall k :: 0 <= k < |r| ==> Valid(r[k]) && Lacks(r[k].bytes, needle)
    ensures forall k :: 0 <= k < |r| - 1 ==> Lacks(r[k].bytes + needle[..|needle| - 1], needle)
  {
    var ps := Pieces(s.bytes, needle);
    JoinNulFreeParts(ps, needle, s.bytes);
    var r := seq(|ps|, k requires 0 <= k < |ps| => Fresh(ps[k]).value);
    assert BytesOf(r) == ps;
    r
  }

  /** The parts of a NUL-free string joined with a non-empty separator are
      NUL-free. */
  lemma {:induction false} JoinNulFreeParts(ps: seq<seq<byte>>, sep: seq<byte>, b: seq<byte>)
    requires |sep| > 0 && NulFree(b) && Join(ps, sep) == b
    ensures forall k :: 0 <= k < |ps| ==> NulFree(ps[k])
    decreases |ps|
  {
    if |ps| > 1 {
      var t := Join(ps[1..], sep);
      assert b == ps[0] + sep + t;
      NulFreeSlice(b, 0, |ps[0]|);
      assert b[..|ps[0]|] == ps[0];
      NulFreeSlice(b, |ps[0]| + |sep|, |b|);
      assert b[|ps[0]| + |sep|..] == t;
      JoinNulFreeParts(ps[1..], sep, t);
      forall k | 1 <= k < |ps| ensures NulFree(ps[k]) {
        assert ps[k] == ps[1..][k - 1];
      }
    }
  }

  /** Total length of the pieces. */
  function TotalLength(ps: seq<seq<byte>>): nat {
    if |ps| == 0 then 0 else |ps[0]| + TotalLength(ps[1..])
  }

  /** Joining n pieces adds n - 1 separators. */
  lemma {:induction false} JoinLength(ps: seq<seq<byte>>, sep: seq<byte>)
    requires |ps| >= 1
    ensures |Join(ps, sep)| == TotalLength(ps) + (|ps| - 1) * |sep|
    decreases |ps|
  {
    if |ps| > 1 {
      JoinLength(ps[1..], sep);
      assert (|ps| - 1) * |sep| == (|ps| - 2) * |sep| + |sep|;
    } else {
      assert ps[1..] == [];
    }
  }

  /** `str_replaced`: every match of `target` that `str_split` would cut at
      is replaced by `replacement`. The result is `len + n * (|replacement| -
      |target|)` bytes long, where n is the number of matches. */
  function Replaced(s: Str, target: seq<byte>, replacement: seq<byte>): (r: Result<Str>)
    requires Valid(s) && NulFree(target) && NulFree(replacement) && |target| > 0
    ensures var n := |Pieces(s.bytes, target)| - 1;
      && (r.Failure? <==> |s.bytes| + n * |replacement| - n * |target| > MAX_LENGTH)
      && (r.Success? ==> |r.value.bytes| == |s.bytes| + n * |replacement| - n * |target|)
    ensures r.Success? ==> Valid(r.value) && r.value.bytes == Join(Pieces(s.bytes, target), replacement)
  {
    var ps := Pieces(s.bytes, target);
    JoinLength(ps, target);
    JoinLength(ps, replacement);
    JoinNulFreeParts(ps, target, s.bytes);
    JoinNulFree(ps, replacement);
    Fresh(Join(ps, replacement))
  }

  /** Replacing a string by itself changes nothing. */
  lemma {:induction false} ReplaceBySelf(s: Str, target: seq<byte>)
    requires Valid(s) && NulFree(target) && |target| > 0
    ensures Replaced(s, target, target) == Success(Fresh(s.bytes).value)
  {
  }

  /** Without a match there is one piece, and the result is a copy. */
  lemma {:induction false} ReplaceWithoutMatch(s: Str, target: seq<byte>, replacement: seq<byte>)
    requires Valid(s) && NulFree(target) && NulFree(replacement) && |target| > 0
    requires Find(s.bytes, target).None?
    ensures Replaced(s, target, replacement) == Success(Fresh(s.bytes).value)
  {
    assert s.bytes[0..] == s.bytes;
  }
}

=== FILE: results.dfy ===
/** Failure-compatible result type for the string library.

  Every operation of the C library signals failure by returning NULL (or 0, or
  an empty buffer). The model keeps the reason as an `Error` value so that the
  contracts can say which guard rejected a request; a caller of the C code only
  ever sees the NULL.
 */
module Results {

  /** The reasons a string operation returns its failure sentinel. */
  datatype Error =
    | InvalidStep        // slice step of 0
    | OutOfBounds        // index or range outside the string
    | InvalidEncoding    // a lead byte outside the four UTF-8 patterns
    | InvalidMode        // unknown sort-mode letter or no usable mode
    | OutOfMemory        // a request no allocator can satisfy
    | NullInput          // a NULL string handle

  datatype Option<+T> = None | Some(value: T)

  datatype Result<+T> = Success(value: T) | Failure(error: Error) {

    predicate IsFailure() {
      Failure?
    }

    function PropagateFailure<U>(): Result<U>
      requires Failure?
    {
      Failure(error)
    }

    function Extract(): T
      requires Success?
    {
      value
    }
  }
}

=== FILE: slicing.dfy ===
/** The byte slices `str_sliced` (a new string) and `str_slice` (in place).

  A `(start, end, step)` triple with 64-bit signed components is resolved
  into a half-open range [lo, hi) of the string, following the C code
  expression by expression: the unsigned `size_t` arithmetic is written out
  as a reduction modulo 2^64 and then clamped to the length. The bytes of
  the range are then read every |step| bytes, from lo upwards when the step
  is positive and from hi - 1 downwards when it is negative.
 */
module Slicing {
  import opened Results
  import opened Bytes
  import opened Buffer
  import opened Stride

  const INT64_MIN: int := -0x8000_0000_0000_0000
  const INT64_MAX: int := 0x7FFF_FFFF_FFFF_FFFF

  type int64 = x: int | INT64_MIN <= x <= INT64_MAX

  /** The open-bound sentinels of the header. */
  const YASLI_START: int64 := INT64_MIN
  const YASLI_END: int64 := INT64_MAX

  const SIZE_MODULUS: int := 0x1_0000_0000_0000_0000

  /** An integer converted to `size_t`. */
  function SizeT(x: int): (r: nat)
    ensures r < SIZE_MODULUS
    ensures -SIZE_MODULUS <= x < 0 ==> r == x + SIZE_MODULUS
    ensures 0 <= x < SIZE_MODULUS ==> r == x
  {
    x % SIZE_MODULUS
  }

  /** `llabs(step)` as a `size_t`. For INT64_MIN the C result is not
      representable and the call is undefined; the model takes 2^63, which
      is what the usual two's-complement wrap gives once converted to
      `size_t`. */
  function Abs(step: int64): nat {
    if step < 0 then -(step as int) else step
  }

  /** A resolved slice: the half-open byte (or codepoint) range [lo, hi). */
  datatype Range = Range(lo: nat, hi: nat)

  /** Lower bound for a positive step, before clamping. */
  function ForwardLow(len: nat, start: int64): nat {
    if start == YASLI_START then 0
    else if start == YASLI_END then len
    else if start >= 0 then start
    else SizeT(len + start)
  }

  /** Upper bound for a positive step, before clamping: an end of 0 means
      the end of the string. */
  function ForwardHigh(len: nat, end: int64): nat {
    if end == YASLI_START then 0
    else if end == YASLI_END then len
    else if end > 0 then end
    else SizeT(len + end)
  }

  /** Lower bound for a negative step, taken from `end`, which is exclusive
      in the direction of travel. */
  function ReverseLow(len: nat, end: int64): nat {
    if end == YASLI_START then 0
    else if end == YASLI_END then len
    else if end >= 0 then end + 1
    else SizeT(len + end + 1)
  }

  /** Upper bound for a negative step, taken from `start`, which is inclusive:
      a start of 0 means the end of the string. */
  function ReverseHigh(len: nat, start: int64): nat {
    if start == YASLI_START then 0
    else if start == YASLI_END then len
    else if start == 0 then len
    else if start > 0 then start + 1
    else SizeT(len + start + 1)
  }

  function Clamp(i: nat, len: nat): (r: nat)
    ensures r <= len
  {
    if i > len then len else i
  }

  /** The bound resolution shared by the four slice functions, over a
      sequence of `len` elements. A step of 0 and a lower bound above the
      upper bound are both rejected, whatever the sign of the step. */
  function Resolve(len: nat, start: int64, end: int64, step: int64): (r: Result<Range>)
    requires len <= MAX_LENGTH
    ensures step == 0 ==> r == Failure(InvalidStep)
    ensures step != 0 && r.Failure? ==> r.error == OutOfBounds
    ensures r.Success? ==> r.value.lo <= r.value.hi <= len
  {
    if step == 0 then Failure(InvalidStep)
    else
      var lo := Clamp(if step > 0 then ForwardLow(len, start) else ReverseLow(len, end), len);
      var hi := Clamp(if step > 0 then ForwardHigh(len, end) else ReverseHigh(len, start), len);
      if lo > hi then Failure(OutOfBounds) else Success(Range(lo, hi))
  }

  /** Where an index lands: counted from the front when non-negative, from
      the back when negative, and on `len` when that falls outside 0..len
      (a position before the front wraps around as an unsigned value and is
      clamped like a position past the back). */
  function Fit(len: nat, i: int): (r: nat)
    ensures r <= len
  {
    if 0 <= i <= len then i else len
  }

  function Index(len: nat, x: int): int {
    if x >= 0 then x else len + x
  }

  /** The range a triple denotes, stated without unsigned arithmetic: for a
      positive step [start, end) with end 0 meaning the end; for a negative
      step the inclusive positions end+1 .. start, with start 0 meaning the
      end; the sentinels pin a bound to 0 or to len. */
  function Denoted(len: nat, start: int64, end: int64, step: int64): (r: Range)
    requires step != 0
  {
    if step > 0 then
      Range(
        if start == YASLI_START then 0 else if start == YASLI_END then len else Fit(len, Index(len, start)),
        if end == YASLI_START then 0 else if end == YASLI_END || end == 0 then len else Fit(len, Index(len, end)))
    else
      Range(
        if end == YASLI_START then 0 else if end == YASLI_END then len else Fit(len, Index(len, end) + 1),
        if start == YASLI_START then 0 else if start == YASLI_END || start == 0 then len else Fit(len, Index(len, start) + 1))
  }

  /** The C resolution computes the denoted range, and fails exactly when
      that range is inverted. */
  lemma {:induction false} ResolveIsDenoted(len: nat, start: int64, end: int64, step: int64)
    requires len <= MAX_LENGTH && step != 0
    ensures var d := Denoted(len, start, end, step);
      && (Resolve(len, start, end, step).Success? <==> d.lo <= d.hi)
      && (d.lo <= d.hi ==> Resolve(len, start, end, step) == Success(d))
  {
  }

  /** A full reverse written with the sentinels the other way round is
      rejected on any non-empty sequence. */
  lemma {:induction false} ReversedSentinelsRejected(len: nat, step: int64)
    requires 0 < len <= MAX_LENGTH && step < 0
    ensures Resolve(len, YASLI_START, YASLI_END, step) == Failure(OutOfBounds)
  {
  }

  /** The full ranges: (START, END, k) and (END, START, -k) cover
      everything. */
  lemma {:induction false} FullRanges(len: nat, step: int64)
    requires len <= MAX_LENGTH && step != 0
    ensures step > 0 ==> Resolve(len, YASLI_START, YASLI_END, step) == Success(Range(0, len))
    ensures step < 0 ==> Resolve(len, YASLI_END, YASLI_START, step) == Success(Range(0, len))
  {
  }

  /** Every |step|-th element of `xs`, forwards or backwards by the sign. */
  function Stepped<T>(xs: seq<T>, step: int64): seq<T>
    requires step != 0
  {
    if step > 0 then Forward(xs, Abs(step)) else Backward(xs, Abs(step))
  }

  /** Length and contents of a stepped read. */
  lemma {:induction false} SteppedIndex<T>(xs: seq<T>, step: int64)
    requires step != 0
    ensures |Stepped(xs, step)| == CeilDiv(|xs|, Abs(step))
    ensures forall m :: 0 <= m < |Stepped(xs, step)| ==>
      && m * Abs(step) < |xs|
      && Stepped(xs, step)[m] == (if step > 0 then xs[m * Abs(step)] else xs[|xs| - 1 - m * Abs(step)])
  {
    var k := Abs(step);
    if step > 0 {
      var r := Forward(xs, k);
      forall m | 0 <= m < |r| ensures m * k < |xs| && r[m] == xs[m * k] {
        ForwardAt(xs, k, m);
      }
    } else {
      var r := Backward(xs, k);
      forall m | 0 <= m < |r| ensures m * k < |xs| && r[m] == xs[|xs| - 1 - m * k] {
        BackwardAt(xs, k, m);
      }
    }
  }

  /** A stepped read only picks elements of its source. */
  lemma {:induction false} SteppedIn<T>(xs: seq<T>, step: int64)
    requires step != 0
    ensures forall m :: 0 <= m < |Stepped(xs, step)| ==> Stepped(xs, step)[m] in xs
  {
    SteppedIndex(xs, step);
  }

  lemma {:induction false} SteppedNulFree(xs: seq<byte>, step: int64)
    requires step != 0 && NulFree(xs)
    ensures NulFree(Stepped(xs, step))
    ensures |Stepped(xs, step)| <= |xs|
  {
    SteppedIndex(xs, step);
    CeilDivAtMost(|xs|, Abs(step));
  }

  /** The byte of the string that element m of a slice of `rg` copies:
      lo + m|step| going forwards, hi - 1 - m|step| going backwards. */
  function Source(rg: Range, step: int64, m: nat): int {
    if step > 0 then rg.lo + m * Abs(step) else rg.hi - 1 - m * Abs(step)
  }

  /** What `SliceBytes` holds, index by index, in terms of the whole string. */
  lemma {:induction false} SliceBytesIndex(b: seq<byte>, rg: Range, step: int64)
    requires step != 0 && rg.lo <= rg.hi <= |b| && NulFree(b)
    ensures NulFree(SliceBytes(b, rg, step))
    ensures |SliceBytes(b, rg, step)| == CeilDiv(rg.hi - rg.lo, Abs(step)) <= |b|
    ensures forall m :: 0 <= m < |SliceBytes(b, rg, step)| ==>
      && rg.lo <= Source(rg, step, m) < rg.hi
      && SliceBytes(b, rg, step)[m] == b[Source(rg, step, m)]
  {
    var sub := b[rg.lo..rg.hi];
    assert NulFree(sub) by {
      forall i | 0 <= i < |sub| ensures sub[i] != 0 {
        assert sub[i] == b[rg.lo + i];
      }
    }
    SteppedIndex(sub, step);
    SteppedNulFree(sub, step);
    var r := SliceBytes(b, rg, step);
    forall m | 0 <= m < |r|
      ensures rg.lo <= Source(rg, step, m) < rg.hi && r[m] == b[Source(rg, step, m)]
    {
      var p := if step > 0 then m * Abs(step) else |sub| - 1 - m * Abs(step);
      assert r[m] == sub[p];
      assert Source(rg, step, m) == rg.lo + p;
    }
  }

  /** One step of the forward copy loop from index i. */
  lemma {:induction false} ForwardFrom<T>(xs: seq<T>, i: nat, k: nat)
    requires k >= 1 && i < |xs|
    ensures Forward(xs[i..], k) == [xs[i]] + Forward(xs[Min(i + k, |xs|)..], k)
  {
    assert xs[i..][Min(k, |xs| - i)..] == xs[Min(i + k, |xs|)..];
  }

  /** One step of the reverse copy loop from index j. */
  lemma {:induction false} BackwardFrom<T>(xs: seq<T>, j: nat, k: nat)
    requires k >= 1 && j < |xs|
    ensures Backward(xs[..j + 1], k) == [xs[j]] + Backward(xs[..j + 1 - Min(k, j + 1)], k)
  {
    assert xs[..j + 1][..j + 1 - Min(k, j + 1)] == xs[..j + 1 - Min(k, j + 1)];
  }

  /** The copy loop of `str_sliced` and `str_slice` for a positive step. */
  method ExtractForward<T>(xs: seq<T>, k: nat) returns (r: seq<T>)
    requires k >= 1
    ensures r == Forward(xs, k)
  {
    var n := |xs|;
    r := [];
    var i: nat := 0;
    while i < n
      invariant r + Forward(xs[Min(i, n)..], k) == Forward(xs, k)
      decreases n - i
    {
      assert Min(i, n) == i;
      ForwardLoopStep(xs, k, r, i);
      r := r + [xs[i]];
      i := i + k;
    }
    assert xs[Min(i, n)..] == [];
  }

  /** One round of the forward copy loop keeps its invariant. */
  lemma {:induction false} ForwardLoopStep<T>(xs: seq<T>, k: nat, r: seq<T>, i: nat)
    requires k >= 1 && i < |xs|
    requires r + Forward(xs[i..], k) == Forward(xs, k)
    ensures (r + [xs[i]]) + Forward(xs[Min(i + k, |xs|)..], k) == Forward(xs, k)
  {
    ForwardFrom(xs, i, k);
  }

  /** The copy loop for a negative step, with a `size_t` index: it counts
      down from n - 1 and stops once the index wraps around past 0, which
      the C code detects as the index exceeding n. */
  method ExtractBackward<T>(xs: seq<T>, step: int64) returns (r: seq<T>)
    requires step < 0 && |xs| <= MAX_LENGTH
    ensures r == Backward(xs, Abs(step))
  {
    var n := |xs|;
    var k := Abs(step);
    r := [];
    var i: nat := SizeT(n - 1);
    ghost var j: int := n - 1;
    assert xs[..n] == xs;
    while i <= n
      invariant -k <= j < n
      invariant i == SizeT(j)
      invariant j >= 0 ==> r + Backward(xs[..j + 1], k) == Backward(xs, k)
      invariant j < 0 ==> r == Backward(xs, k)
      decreases j + k
    {
      BackwardLoopStep(xs, k, r, j);
      r := r + [xs[i]];
      i := SizeT(i + step);
      j := j + step;
    }
  }

  /** One round of the reverse copy loop keeps its invariant. */
  lemma {:induction false} BackwardLoopStep<T>(xs: seq<T>, k: nat, r: seq<T>, j: nat)
    requires k >= 1 && j < |xs|
    requires r + Backward(xs[..j + 1], k) == Backward(xs, k)
    ensures j >= k ==> (r + [xs[j]]) + Backward(xs[..j - k + 1], k) == Backward(xs, k)
    ensures j < k ==> r + [xs[j]] == Backward(xs, k)
  {
    BackwardFrom(xs, j, k);
    if j < k {
      assert xs[..j + 1 - Min(k, j + 1)] == [];
    }
  }

  /** The copy loops of `str_sliced` and `str_slice`. */
  method Extract<T>(xs: seq<T>, step: int64) returns (r: seq<T>)
    requires step != 0 && |xs| <= MAX_LENGTH
    ensures r == Stepped(xs, step)
  {
    if step > 0 {
      r := ExtractForward(xs, Abs(step));
    } else {
      r := ExtractBackward(xs, step);
    }
  }

  /** The bytes a successful slice yields. */
  function SliceBytes(b: seq<byte>, rg: Range, step: int64): seq<byte>
    requires step != 0 && rg.lo <= rg.hi <= |b|
  {
    Stepped(b[rg.lo..rg.hi], step)
  }

  /** `str_sliced`: a new string holding every |step|-th byte of the
      resolved range; the source string is not changed. */
  function Sliced(s: Str, start: int64, end: int64, step: int64): (r: Result<Str>)
    requires Valid(s)
    ensures r.Failure? <==> Resolve(|s.bytes|, start, end, step).Failure?
    ensures r.Failure? ==> r.error == Resolve(|s.bytes|, start, end, step).error
    ensures r.Success? ==> Valid(r.value)
    ensures r.Success? ==>
      var rg, k := Resolve(|s.bytes|, start, end, step).value, Abs(step);
      && |r.value.bytes| == CeilDiv(rg.hi - rg.lo, k)
      && forall m :: 0 <= m < |r.value.bytes| ==>
           rg.lo <= Source(rg, step, m) < rg.hi && r.value.bytes[m] == s.bytes[Source(rg, step, m)]
  {
    var rg :- Resolve(|s.bytes|, start, end, step);
    SliceBytesIndex(s.bytes, rg, step);
    Fresh(SliceBytes(s.bytes, rg, step))
  }

  /** `str_slice`: the same bytes as `str_sliced`, written back into the
      string, whose capacity then follows the resize rule from its old
      capacity. */
  function Slice(s: Str, start: int64, end: int64, step: int64): (r: Result<Str>)
    requires Valid(s)
    ensures r.Success? <==> Sliced(s, start, end, step).Success?
    ensures r.Failure? ==> r.error == Sliced(s, start, end, step).error
    ensures r.Success? ==> Valid(r.value)
    ensures r.Success? ==> r.value.bytes == Sliced(s, start, end, step).value.bytes
    ensures r.Success? ==> r.value.capacity == NewCapacity(s.capacity, |r.value.bytes|)
  {
    var rg :- Resolve(|s.bytes|, start, end, step);
    SliceBytesIndex(s.bytes, rg, step);
    Allocate(s.capacity, SliceBytes(s.bytes, rg, step))
  }

  /** "abcdefgh" with (1, 7, 2) gives "bdf"; with (END, START, -2) it gives
      "hfdb". */
  lemma {:induction false} SliceExamples()
    ensures var s := Str([0x61, 0x62, 0x63, 0x64, 0x65, 0x66, 0x67, 0x68], 16);
      && Sliced(s, 1, 7, 2) == Fresh([0x62, 0x64, 0x66])
      && Sliced(s, YASLI_END, YASLI_START, -2) == Fresh([0x68, 0x66, 0x64, 0x62])
      && Sliced(s, YASLI_START, YASLI_END, -1) == Failure(OutOfBounds)
      && Sliced(s, 1, 7, 0) == Failure(InvalidStep)
  {
    var s := Str([0x61, 0x62, 0x63, 0x64, 0x65, 0x66, 0x67, 0x68], 16);
    var b := s.bytes;
    assert Resolve(8, 1, 7, 2) == Success(Range(1, 7));
    var f := Forward(b[1..7], 2);
    DivModUnique(6, 2, 3, 0);
    ForwardAt(b[1..7], 2, 0);
    ForwardAt(b[1..7], 2, 1);
    ForwardAt(b[1..7], 2, 2);
    assert f == [0x62, 0x64, 0x66];
    assert Resolve(8, YASLI_END, YASLI_START, -2) == Success(Range(0, 8));
    assert b[0..8] == b;
    var g := Backward(b, 2);
    DivModUnique(8, 2, 4, 0);
    BackwardAt(b, 2, 0);
    BackwardAt(b, 2, 1);
    BackwardAt(b, 2, 2);
    BackwardAt(b, 2, 3);
    assert g == [0x68, 0x66, 0x64, 0x62];
  }

  /** Slicing the whole string with step 1 copies it; with step -1 it
      reverses it, and reversing twice restores it. */
  lemma {:induction false} WholeSlices(s: Str)
    requires Valid(s)
    ensures Sliced(s, YASLI_START, YASLI_END, 1).Success?
    ensures Sliced(s, YASLI_START, YASLI_END, 1).value.bytes == s.bytes
    ensures Sliced(s, YASLI_END, YASLI_START, -1).Success?
    ensures Sliced(s, YASLI_END, YASLI_START, -1).value.bytes == Reverse(s.bytes)
    ensures Sliced(Sliced(s, YASLI_END, YASLI_START, -1).value, YASLI_END, YASLI_START, -1).value.bytes == s.bytes
  {
    FullRanges(|s.bytes|, 1);
    FullRanges(|s.bytes|, -1);
    assert s.bytes[0..|s.bytes|] == s.bytes;
    StepOne(s.bytes);
    var t := Sliced(s, YASLI_END, YASLI_START, -1).value;
    FullRanges(|t.bytes|, -1);
    assert t.bytes[0..|t.bytes|] == t.bytes;
    StepOne(t.bytes);
    ReverseReverse(s.bytes);
  }
}

=== FILE: sortmode.dfy ===
/** The mode string of `str_sort` and `str_sorted`, and the comparators it
  selects.

  The parser reads letters until the terminator: 'c' (custom comparator)
  stops it, 'i' asks for case folding, 'l' for length order and 'a' for
  alphabetical order; an 'a' after an 'l' turns the pair into length-then-
  alphabetical, while an 'l' after an 'a' is ignored. Any other letter
  rejects the mode. The sorting itself is the C library's qsort and is not
  part of this model; the comparators are.
 */
module SortMode {
  import opened Results
  import opened Bytes
  import opened Compare

  const LETTER_C: byte := 0x63
  const LETTER_I: byte := 0x69
  const LETTER_L: byte := 0x6C
  const LETTER_A: byte := 0x61

  /** The flags of the parser: `c`, `i`, `l`, `a` and `la`. */
  datatype Options = Options(custom: bool, fold: bool, length: bool, alpha: bool, lengthAlpha: bool)

  const NO_OPTIONS: Options := Options(false, false, false, false, false)

  /** The effect of one letter other than 'c'; None rejects the mode. */
  function Letter(o: Options, ch: byte): Option<Options> {
    if ch == LETTER_I then Some(o.(fold := true))
    else if ch == LETTER_L then
      if o.alpha then Some(o) else Some(o.(length := true))
    else if ch == LETTER_A then
      if o.length then Some(o.(length := false, lengthAlpha := true)) else Some(o.(alpha := true))
    else None
  }

  /** The parser loop from letter `i` of `mode`. */
  function ParseFrom(mode: seq<byte>, i: nat, o: Options): (r: Result<Options>)
    requires i <= |mode|
    ensures r.Failure? ==> r.error == InvalidMode
    decreases |mode| - i
  {
    if i == |mode| then Success(o)
    else if mode[i] == LETTER_C then Success(o.(custom := true))
    else
      match Letter(o, mode[i])
      case None => Failure(InvalidMode)
      case Some(next) => ParseFrom(mode, i + 1, next)
  }

  function Parse(mode: seq<byte>): Result<Options> {
    ParseFrom(mode, 0, NO_OPTIONS)
  }

  datatype Comparator =
    | Custom                     // the caller's function, from the variadic argument
    | ByLength                   // str_cmp_l
    | Alphabetical               // str_cmp_a
    | AlphabeticalFold           // str_cmp_ai
    | LengthAlphabetical         // str_cmp_la
    | LengthAlphabeticalFold     // str_cmp_lai

  /** The comparator choice as the source writes it. The test for `la`
      without `i` comes before the test for `la` with `i`, so the second can
      never be taken. */
  function DispatchAsWritten(o: Options): Result<Comparator> {
    if o.custom then Success(Custom)
    else if o.length then Success(ByLength)
    else if o.alpha && !o.fold then Success(Alphabetical)
    else if o.alpha && o.fold then Success(AlphabeticalFold)
    else if o.lengthAlpha then Success(LengthAlphabetical)
    else if o.lengthAlpha && o.fold then Success(LengthAlphabeticalFold)
    else Failure(InvalidMode)
  }

  /** The comparator choice with the `la`-with-`i` test first. */
  function Dispatch(o: Options): Result<Comparator> {
    if o.custom then Success(Custom)
    else if o.length then Success(ByLength)
    else if o.alpha && !o.fold then Success(Alphabetical)
    else if o.alpha && o.fold then Success(AlphabeticalFold)
    else if o.lengthAlpha && o.fold then Success(LengthAlphabeticalFold)
    else if o.lengthAlpha then Success(LengthAlphabetical)
    else Failure(InvalidMode)
  }

  /** The comparator `str_sort` uses for `mode`, as written. */
  function SelectAsWritten(mode: seq<byte>): (r: Result<Comparator>)
    ensures r.Success? ==> Parse(mode).Success?
    ensures r.Failure? ==> r.error == InvalidMode
  {
    var o :- Parse(mode);
    DispatchAsWritten(o)
  }

  /** The comparator for `mode` with the corrected dispatch. */
  function Select(mode: seq<byte>): (r: Result<Comparator>)
    ensures r.Success? ==> Parse(mode).Success?
    ensures r.Failure? ==> r.error == InvalidMode
  {
    var o :- Parse(mode);
    Dispatch(o)
  }

  /** Letters the parser accepts before a 'c'. */
  predicate OrderLetters(p: seq<byte>) {
    forall i :: 0 <= i < |p| ==> p[i] in {LETTER_I, LETTER_L, LETTER_A}
  }

  lemma {:induction false} ParseReachesC(p: seq<byte>, q: seq<byte>, i: nat, o: Options)
    requires OrderLetters(p) && i <= |p|
    ensures ParseFrom(p + [LETTER_C] + q, i, o).Success?
    ensures ParseFrom(p + [LETTER_C] + q, i, o).value.custom
    decreases |p| - i
  {
    var mode := p + [LETTER_C] + q;
    if i < |p| {
      assert mode[i] == p[i];
      ParseReachesC(p, q, i + 1, Letter(o, p[i]).value);
    } else {
      assert mode[i] == LETTER_C;
    }
  }

  /** A 'c' overrides every other letter: whatever letters precede it and
      whatever follows it, the custom comparator is chosen. */
  lemma {:induction false} CustomOverrides(p: seq<byte>, q: seq<byte>)
    requires OrderLetters(p)
    ensures SelectAsWritten(p + [LETTER_C] + q) == Success(Custom)
    ensures Select(p + [LETTER_C] + q) == Success(Custom)
  {
    ParseReachesC(p, q, 0, NO_OPTIONS);
  }

  lemma {:induction false} ParseRejects(p: seq<byte>, x: byte, q: seq<byte>, i: nat, o: Options)
    requires OrderLetters(p) && i <= |p|
    requires x !in {LETTER_C, LETTER_I, LETTER_L, LETTER_A}
    ensures ParseFrom(p + [x] + q, i, o) == Failure(InvalidMode)
    decreases |p| - i
  {
    var mode := p + [x] + q;
    if i < |p| {
      assert mode[i] == p[i];
      ParseRejects(p, x, q, i + 1, Letter(o, p[i]).value);
    } else {
      assert mode[i] == x;
    }
  }

  /** A letter outside "cila" before any 'c' rejects the mode. */
  lemma {:induction false} UnknownLetterRejected(p: seq<byte>, x: byte, q: seq<byte>)
    requires OrderLetters(p)
    requires x !in {LETTER_C, LETTER_I, LETTER_L, LETTER_A}
    ensures SelectAsWritten(p + [x] + q) == Failure(InvalidMode)
    ensures Select(p + [x] + q) == Failure(InvalidMode)
  {
    ParseRejects(p, x, q, 0, NO_OPTIONS);
  }

  lemma {:induction false} ParseOnlyFold(mode: seq<byte>, i: nat, o: Options)
    requires i <= |mode| && forall k :: 0 <= k < |mode| ==> mode[k] == LETTER_I
    requires !o.custom && !o.length && !o.alpha && !o.lengthAlpha
    ensures ParseFrom(mode, i, o).Success?
    ensures var v := ParseFrom(mode, i, o).value; !v.custom && !v.length && !v.alpha && !v.lengthAlpha
    decreases |mode| - i
  {
    if i < |mode| {
      ParseOnlyFold(mode, i + 1, o.(fold := true));
    }
  }

  /** A mode naming no order, the empty mode or only 'i's, is rejected. */
  lemma {:induction false} NoOrderRejected(mode: seq<byte>)
    requires forall k :: 0 <= k < |mode| ==> mode[k] == LETTER_I
    ensures SelectAsWritten(mode) == Failure(InvalidMode)
    ensures Select(mode) == Failure(InvalidMode)
  {
    ParseOnlyFold(mode, 0, NO_OPTIONS);
  }

  /** Order matters: "la" sorts by length and then bytes, "al" by bytes
      alone, and a single letter picks its own order. */
  lemma {:induction false} LetterOrder()
    ensures SelectAsWritten([LETTER_L, LETTER_A]) == Success(LengthAlphabetical)
    ensures SelectAsWritten([LETTER_A, LETTER_L]) == Success(Alphabetical)
    ensures SelectAsWritten([LETTER_L]) == Success(ByLength)
    ensures SelectAsWritten([LETTER_A]) == Success(Alphabetical)
    ensures SelectAsWritten([LETTER_A, LETTER_I]) == Success(AlphabeticalFold)
    ensures SelectAsWritten([LETTER_I, LETTER_A]) == Success(AlphabeticalFold)
  {
    var l, a, i := NO_OPTIONS.(length := true), NO_OPTIONS.(alpha := true), NO_OPTIONS.(fold := true);
    assert ParseFrom([LETTER_L, LETTER_A], 1, l) == ParseFrom([LETTER_L, LETTER_A], 2, l.(length := false, lengthAlpha := true));
    assert ParseFrom([LETTER_A, LETTER_L], 1, a) == ParseFrom([LETTER_A, LETTER_L], 2, a);
    assert ParseFrom([LETTER_L], 0, NO_OPTIONS) == ParseFrom([LETTER_L], 1, l);
    assert ParseFrom([LETTER_A], 0, NO_OPTIONS) == ParseFrom([LETTER_A], 1, a);
    assert ParseFrom([LETTER_A, LETTER_I], 1, a) == ParseFrom([LETTER_A, LETTER_I], 2, a.(fold := true));
    assert ParseFrom([LETTER_I, LETTER_A], 1, i) == ParseFrom([LETTER_I, LETTER_A], 2, i.(alpha := true));
  }

  /** As written, no mode reaches the case-insensitive length-then-bytes
      comparator: "lai" gets the case-sensitive one. The corrected dispatch
      gives "lai" its folding comparator. */
  lemma {:induction false} FoldedLengthUnreachable(o: Options)
    ensures DispatchAsWritten(o) != Success(LengthAlphabeticalFold)
    ensures SelectAsWritten([LETTER_L, LETTER_A, LETTER_I]) == Success(LengthAlphabetical)
    ensures Select([LETTER_L, LETTER_A, LETTER_I]) == Success(LengthAlphabeticalFold)
  {
    var mode := [LETTER_L, LETTER_A, LETTER_I];
    var la := NO_OPTIONS.(lengthAlpha := true);
    assert ParseFrom(mode, 0, NO_OPTIONS) == ParseFrom(mode, 1, NO_OPTIONS.(length := true));
    assert ParseFrom(mode, 1, NO_OPTIONS.(length := true)) == ParseFrom(mode, 2, la);
    assert ParseFrom(mode, 2, la) == ParseFrom(mode, 3, la.(fold := true));
  }

  /** The two dispatches differ only where the unreachable test was meant to
      apply. */
  lemma {:induction false} DispatchesAgreeElsewhere(o: Options)
    ensures Dispatch(o) != DispatchAsWritten(o) <==>
      !o.custom && !o.length && !o.alpha && o.lengthAlpha && o.fold
  {
  }

  // ------------------------------------------------------------ comparators

  /** The comparator's answer for `a` against `b`; its sign orders them. The
      length comparators compare the bytes only for equal lengths, and the
      source's loop then stops before the terminators, which agree anyway. */
  function Order(cmp: Comparator, a: seq<byte>, b: seq<byte>, signed: bool): int
    requires cmp != Custom && NulFree(a) && NulFree(b)
  {
    match cmp
    case ByLength => |a| - |b|
    case Alphabetical => CompareBytes(a, b, false, signed)
    case AlphabeticalFold => CompareBytes(a, b, true, signed)
    case LengthAlphabetical => if |a| != |b| then |a| - |b| else CompareBytes(a, b, false, signed)
    case LengthAlphabeticalFold => if |a| != |b| then |a| - |b| else CompareBytes(a, b, true, signed)
  }

  /** Whether the comparator folds case. */
  function Folds(cmp: Comparator): bool {
    cmp == AlphabeticalFold || cmp == LengthAlphabeticalFold
  }

  /** The relation a comparator's negative answers stand for. */
  ghost predicate Before(cmp: Comparator, a: seq<byte>, b: seq<byte>, signed: bool)
    requires cmp != Custom
  {
    var keysFirst := Precedes(Keys(a, Folds(cmp), signed), Keys(b, Folds(cmp), signed));
    match cmp
    case ByLength => |a| < |b|
    case Alphabetical => keysFirst
    case AlphabeticalFold => keysFirst
    case LengthAlphabetical => |a| < |b| || (|a| == |b| && keysFirst)
    case LengthAlphabeticalFold => |a| < |b| || (|a| == |b| && keysFirst)
  }

  /** What each comparator orders by: a negative answer means `Before`, and
      swapping the arguments negates the answer. */
  lemma {:induction false} OrderMeaning(cmp: Comparator, a: seq<byte>, b: seq<byte>, signed: bool)
    requires cmp != Custom && NulFree(a) && NulFree(b)
    ensures Order(cmp, a, b, signed) < 0 <==> Before(cmp, a, b, signed)
    ensures Order(cmp, a, b, signed) == -Order(cmp, b, a, signed)
  {
    CompareAntisymmetric(a, b, Folds(cmp), signed);
  }

  /** A comparator answers 0 only for strings it cannot tell apart: equal
      strings, except that the length order ignores contents and the folding
      orders ignore case. */
  lemma {:induction false} OrderZero(cmp: Comparator, a: seq<byte>, b: seq<byte>, signed: bool)
    requires cmp != Custom && NulFree(a) && NulFree(b)
    ensures cmp == ByLength ==> (Order(cmp, a, b, signed) == 0 <==> |a| == |b|)
    ensures cmp == Alphabetical || cmp == LengthAlphabetical ==> (Order(cmp, a, b, signed) == 0 <==> a == b)
    ensures Folds(cmp) ==> (Order(cmp, a, b, signed) == 0 <==> Keys(a, true, signed) == Keys(b, true, signed))
  {
    KeysInjective(a, b, signed);
  }

  /** The negative answers of every comparator form a transitive relation,
      as qsort needs. */
  lemma {:induction false} OrderTransitive(cmp: Comparator, a: seq<byte>, b: seq<byte>, c: seq<byte>, signed: bool)
    requires cmp != Custom && NulFree(a) && NulFree(b) && NulFree(c)
    requires Order(cmp, a, b, signed) < 0 && Order(cmp, b, c, signed) < 0
    ensures Order(cmp, a, c, signed) < 0
  {
    OrderMeaning(cmp, a, b, signed);
    OrderMeaning(cmp, b, c, signed);
    OrderMeaning(cmp, a, c, signed);
    var f := Folds(cmp);
    if cmp != ByLength && |a| == |b| == |c| {
      PrecedesTransitive(Keys(a, f, signed), Keys(b, f, signed), Keys(c, f, signed));
    } else if cmp == Alphabetical || cmp == AlphabeticalFold {
      PrecedesTransitive(Keys(a, f, signed), Keys(b, f, signed), Keys(c, f, signed));
    }
  }
}

=== FILE: stride.dfy ===
/** Every k-th element of a sequence, read forwards from its first element or
  backwards from its last. The byte slices pick bytes this way and the UTF-8
  slices pick whole codepoints; both pieces of the C code size the result as
  ceil(n / k), written with `%` and `/` on unsigned integers.
 */
module Stride {

  function Min(a: nat, b: nat): nat {
    if a <= b then a else b
  }

  /** ceil(n / k) as the C code writes it. */
  function CeilDiv(n: nat, k: nat): nat
    requires k >= 1
  {
    if n % k == 0 then n / k else n / k + 1
  }

  /** Integer division pinned down by quotient and remainder. */
  lemma {:induction false} DivModUnique(n: nat, k: nat, q: nat, r: nat)
    requires k >= 1 && r < k && n == q * k + r
    ensures n / k == q && n % k == r
  {
    var q', r' := n / k, n % k;
    assert (q' - q) * k == r - r';
    MulSmall(q' - q, k, r - r');
  }

  /** A multiple of k strictly between -k and k is 0. */
  lemma {:induction false} MulSmall(a: int, k: int, d: int)
    requires k >= 1 && a * k == d && -k < d < k
    ensures a == 0
  {
  }

  /** A stride never has more elements than its source. */
  lemma {:induction false} CeilDivAtMost(n: nat, k: nat)
    requires k >= 1
    ensures CeilDiv(n, k) <= n
  {
    var q, r := n / k, n % k;
    DivModUnique(n, k, q, r);
    MulAtLeast(q, k);
  }

  lemma {:induction false} MulAtLeast(a: nat, k: nat)
    requires k >= 1
    ensures a <= a * k
  {
  }

  /** Removing k elements removes exactly one from the count. */
  lemma {:induction false} CeilDivStep(n: nat, k: nat)
    requires k >= 1 && n > k
    ensures CeilDiv(n, k) == 1 + CeilDiv(n - k, k)
  {
    var q, r := (n - k) / k, (n - k) % k;
    DivModUnique(n, k, q + 1, r);
  }

  lemma {:induction false} CeilDivSmall(n: nat, k: nat)
    requires 1 <= n <= k
    ensures CeilDiv(n, k) == 1
  {
    if n == k {
      DivModUnique(n, k, 1, 0);
    } else {
      DivModUnique(n, k, 0, n);
    }
  }

  /** Dropping the first k elements (or all of them) drops one from the
      count. */
  lemma {:induction false} CeilDivCons(n: nat, k: nat)
    requires n >= 1 && k >= 1
    ensures CeilDiv(n, k) == 1 + CeilDiv(n - Min(k, n), k)
  {
    if k < n {
      CeilDivStep(n, k);
    } else {
      CeilDivSmall(n, k);
    }
  }

  lemma {:induction false} ShiftedIndex(k: nat, n: nat)
    ensures forall m :: 1 <= m <= n ==> m * k == k + (m - 1) * k
  {
  }

  /** Elements 0, k, 2k, ... of `xs`. */
  function Forward<T>(xs: seq<T>, k: nat): (r: seq<T>)
    requires k >= 1
    ensures |r| == CeilDiv(|xs|, k)
    decreases |xs|
  {
    if |xs| == 0 then []
    else
      CeilDivCons(|xs|, k);
      [xs[0]] + Forward(xs[Min(k, |xs|)..], k)
  }

  /** Elements n-1, n-1-k, n-1-2k, ... of `xs`, where n = |xs|. */
  function Backward<T>(xs: seq<T>, k: nat): (r: seq<T>)
    requires k >= 1
    ensures |r| == CeilDiv(|xs|, k)
    decreases |xs|
  {
    if |xs| == 0 then []
    else
      CeilDivCons(|xs|, k);
      [xs[|xs| - 1]] + Backward(xs[..|xs| - Min(k, |xs|)], k)
  }

  /** Element m of a forward stride is element m*k of the source. */
  lemma {:induction false} ForwardAt<T>(xs: seq<T>, k: nat, m: nat)
    requires k >= 1 && m < |Forward(xs, k)|
    ensures m * k < |xs| && Forward(xs, k)[m] == xs[m * k]
    decreases m
  {
    if m > 0 {
      var j := Min(k, |xs|);
      ForwardAt(xs[j..], k, m - 1);
      ShiftedIndex(k, m);
      assert j == k;
    }
  }

  /** Element m of a backward stride is element n-1-m*k of the source. */
  lemma {:induction false} BackwardAt<T>(xs: seq<T>, k: nat, m: nat)
    requires k >= 1 && m < |Backward(xs, k)|
    ensures m * k < |xs| && Backward(xs, k)[m] == xs[|xs| - 1 - m * k]
    decreases m
  {
    if m > 0 {
      var j := Min(k, |xs|);
      BackwardAt(xs[..|xs| - j], k, m - 1);
      ShiftedIndex(k, m);
      assert j == k;
    }
  }

  function Reverse<T>(xs: seq<T>): (r: seq<T>)
    ensures |r| == |xs|
    ensures forall i :: 0 <= i < |xs| ==> r[i] == xs[|xs| - 1 - i]
  {
    if |xs| == 0 then [] else Reverse(xs[1..]) + [xs[0]]
  }

  /** Reading backwards is reading the reversed sequence forwards. */
  lemma {:induction false} BackwardIsForwardOfReverse<T>(xs: seq<T>, k: nat)
    requires k >= 1
    ensures Backward(xs, k) == Forward(Reverse(xs), k)
  {
    var b, f := Backward(xs, k), Forward(Reverse(xs), k);
    forall m | 0 <= m < |b| ensures b[m] == f[m] {
      BackwardAt(xs, k, m);
      ForwardAt(Reverse(xs), k, m);
    }
  }

  /** A step of 1 keeps every element, in order or reversed. */
  lemma {:induction false} StepOne<T>(xs: seq<T>)
    ensures Forward(xs, 1) == xs
    ensures Backward(xs, 1) == Reverse(xs)
  {
    DivModUnique(|xs|, 1, |xs|, 0);
    var f, b := Forward(xs, 1), Backward(xs, 1);
    forall m | 0 <= m < |xs| ensures f[m] == xs[m] && b[m] == Reverse(xs)[m] {
      ForwardAt(xs, 1, m);
      BackwardAt(xs, 1, m);
    }
  }

  lemma {:induction false} ReverseReverse<T>(xs: seq<T>)
    ensures Reverse(Reverse(xs)) == xs
  {
  }

  /** The sum of the elements 0, k, 2k, ... when the first element sits at
      index `phase` of a longer sequence: the selection test of the forward
      branch of the C size loop, `c % k == 0`. */
  function ForwardSelected(ws: seq<nat>, k: nat, phase: nat): nat
    requires k >= 1
  {
    if |ws| == 0 then 0
    else (if phase % k == 0 then ws[0] else 0) + ForwardSelected(ws[1..], k, phase + 1)
  }

  /** The sum of the elements whose distance from the end is a multiple of k:
      the selection test of the reverse branch, `(n - c - 1) % k == 0`. */
  function BackwardSelected(ws: seq<nat>, k: nat): nat
    requires k >= 1
  {
    if |ws| == 0 then 0
    else (if (|ws| - 1) % k == 0 then ws[0] else 0) + BackwardSelected(ws[1..], k)
  }

  function Sum(ws: seq<nat>): nat
  {
    if |ws| == 0 then 0 else ws[0] + Sum(ws[1..])
  }

  lemma {:induction false} SumAppend(a: seq<nat>, c: seq<nat>)
    ensures Sum(a + c) == Sum(a) + Sum(c)
    decreases |a|
  {
    if |a| == 0 {
      assert a + c == c;
    } else {
      assert (a + c)[1..] == a[1..] + c;
      SumAppend(a[1..], c);
    }
  }

  lemma {:induction false} ModShift(p: nat, k: nat)
    requires k >= 1
    ensures (p + k) % k == p % k
  {
    DivModUnique(p + k, k, p / k + 1, p % k);
  }

  /** Only the phase modulo k matters. */
  lemma {:induction false} ForwardSelectedShift(ws: seq<nat>, k: nat, p: nat)
    requires k >= 1
    ensures ForwardSelected(ws, k, p + k) == ForwardSelected(ws, k, p)
    decreases |ws|
  {
    if |ws| > 0 {
      ModShift(p, k);
      ForwardSelectedShift(ws[1..], k, p + 1);
    }
  }

  /** Elements at phases that are not multiples of k contribute nothing. */
  lemma {:induction false} ForwardSelectedSkip(ws: seq<nat>, k: nat, p: nat, j: nat)
    requires k >= 1 && j <= |ws|
    requires forall c :: p <= c < p + j ==> c % k != 0
    ensures ForwardSelected(ws, k, p) == ForwardSelected(ws[j..], k, p + j)
    decreases j
  {
    if j > 0 {
      assert ws[1..][j - 1..] == ws[j..];
      ForwardSelectedSkip(ws[1..], k, p + 1, j - 1);
    }
  }

  /** The forward size test sums exactly the elements `Forward` picks. */
  lemma {:induction false} ForwardSelectedIsSum(ws: seq<nat>, k: nat)
    requires k >= 1
    ensures ForwardSelected(ws, k, 0) == Sum(Forward(ws, k))
    decreases |ws|
  {
    if |ws| > 0 {
      var j := Min(k, |ws|);
      forall c | 1 <= c < 1 + (j - 1) ensures c % k != 0 {
        DivModUnique(c, k, 0, c);
      }
      ForwardSelectedSkip(ws[1..], k, 1, j - 1);
      assert ws[1..][j - 1..] == ws[j..];
      if j == k {
        ForwardSelectedShift(ws[j..], k, 0);
      } else {
        assert ws[j..] == [];
      }
      ForwardSelectedIsSum(ws[j..], k);
      assert Forward(ws, k) == [ws[0]] + Forward(ws[j..], k);
    }
  }

  lemma {:induction false} ForwardSelectedSnoc(ws: seq<nat>, w: nat, k: nat, p: nat)
    requires k >= 1
    ensures ForwardSelected(ws + [w], k, p)
         == ForwardSelected(ws, k, p) + (if (p + |ws|) % k == 0 then w else 0)
    decreases |ws|
  {
    if |ws| == 0 {
      assert ([w])[1..] == [];
    } else {
      assert (ws + [w])[1..] == ws[1..] + [w];
      ForwardSelectedSnoc(ws[1..], w, k, p + 1);
    }
  }

  /** The reverse size test is the forward test on the reversed widths. */
  lemma {:induction false} BackwardSelectedIsForwardOfReverse(ws: seq<nat>, k: nat)
    requires k >= 1
    ensures BackwardSelected(ws, k) == ForwardSelected(Reverse(ws), k, 0)
    decreases |ws|
  {
    if |ws| > 0 {
      BackwardSelectedIsForwardOfReverse(ws[1..], k);
      ForwardSelectedSnoc(Reverse(ws[1..]), ws[0], k, 0);
    }
  }

  /** The reverse size test sums exactly the elements `Backward` picks. */
  lemma {:induction false} BackwardSelectedIsSum(ws: seq<nat>, k: nat)
    requires k >= 1
    ensures BackwardSelected(ws, k) == Sum(Backward(ws, k))
  {
    BackwardSelectedIsForwardOfReverse(ws, k);
    ForwardSelectedIsSum(Reverse(ws), k);
    BackwardIsForwardOfReverse(ws, k);
  }
}

=== FILE: utf8.dfy ===
/** The UTF-8 lead-byte walker shared by `str_utf8_strlen`,
  `str_utf8_substr`, `str_utf8_char_at` and the UTF-8 slices.

  The walker classifies each lead byte by the table of section 3 of RFC 3629
  (0xxxxxxx, 110xxxxx, 1110xxxx, 11110xxx) and jumps over 1 to 4 bytes. It
  never looks at continuation bytes, so overlong forms and surrogates pass;
  any other lead byte stops it with an error.
 */
module Utf8 {
  import opened Results
  import opened Bytes
  import opened Buffer
  import opened Stride

  /** Byte width announced by a lead byte, 0 for a byte that cannot lead. */
  function LeadWidth(b: byte): (w: nat)
    ensures w <= 4
    ensures w == 1 <==> b < 0x80
    ensures w == 2 <==> 0xC0 <= b < 0xE0
    ensures w == 3 <==> 0xE0 <= b < 0xF0
    ensures w == 4 <==> 0xF0 <= b < 0xF8
    ensures w == 0 <==> (0x80 <= b < 0xC0 || 0xF8 <= b)
  {
    var x := b as bv8;
    if x & 0x80 == 0 then 1
    else if x & 0xE0 == 0xC0 then 2
    else if x & 0xF0 == 0xE0 then 3
    else if x & 0xF8 == 0xF0 then 4
    else 0
  }

  /** What a forward walk over a string found: the width of every codepoint
      whose lead byte it reached, and whether it ended at the terminator
      (`valid`) or at a byte that cannot lead. */
  datatype Scan = Scan(widths: seq<nat>, valid: bool)

  /** Byte offset of codepoint `j` in a string with width table `ws`. */
  function Offset(ws: seq<nat>, j: nat): nat
    requires j <= |ws|
  {
    Sum(ws[..j])
  }

  /** The walk from byte `pos`. It stops at a NUL byte, at the end of the
      string, or once a width has carried it past the end (the source loop
      runs while the position is at most the length). */
  function WalkFrom(b: seq<byte>, pos: nat): (r: Scan)
    ensures forall j :: 0 <= j < |r.widths| ==> 1 <= r.widths[j] <= 4
    decreases if pos <= |b| then |b| + 1 - pos else 0
  {
    if pos >= |b| || b[pos] == 0 then Scan([], true)
    else
      var w := LeadWidth(b[pos]);
      if w == 0 then Scan([], false)
      else
        var rest := WalkFrom(b, pos + w);
        Scan([w] + rest.widths, rest.valid)
  }

  function ScanOf(b: seq<byte>): Scan
  {
    WalkFrom(b, 0)
  }

  /** The number `str_utf8_strlen` returns for a string: its codepoint count,
      or 0 as soon as a byte that cannot lead is met. */
  function Utf8Count(b: seq<byte>): (n: nat)
    ensures n <= |b| && n <= |ScanOf(b).widths|
  {
    WidthsBoundedByBytes(b);
    var sc := ScanOf(b);
    if sc.valid then |sc.widths| else 0
  }

  /** `str_utf8_strlen`; a NULL string counts 0. */
  function Utf8Strlen(s: Option<Str>): (n: nat)
    ensures s.None? ==> n == 0
    ensures s.Some? && !ScanOf(s.value.bytes).valid ==> n == 0
    ensures s.Some? && ScanOf(s.value.bytes).valid ==> n == |ScanOf(s.value.bytes).widths|
    ensures s.Some? ==> n <= |s.value.bytes|
  {
    match s
    case None => 0
    case Some(x) =>
      WalkShape(x.bytes, 0);
      WidthsBoundedByBytes(x.bytes);
      Utf8Count(x.bytes)
  }

  lemma {:induction false} OffsetNext(ws: seq<nat>, j: nat)
    requires j < |ws|
    ensures Offset(ws, j + 1) == Offset(ws, j) + ws[j]
  {
    assert ws[..j + 1] == ws[..j] + [ws[j]];
    SumAppend(ws[..j], [ws[j]]);
  }

  lemma {:induction false} OffsetMonotone(ws: seq<nat>, i: nat, j: nat)
    requires i <= j <= |ws|
    ensures Offset(ws, i) <= Offset(ws, j)
    decreases j - i
  {
    if i < j {
      OffsetMonotone(ws, i, j - 1);
      OffsetNext(ws, j - 1);
    }
  }

  lemma {:induction false} OffsetCons(w: nat, rest: seq<nat>, j: nat)
    requires j <= |rest|
    ensures Offset([w] + rest, j + 1) == w + Offset(rest, j)
  {
    assert ([w] + rest)[..j + 1] == [w] + rest[..j];
    SumAppend([w], rest[..j]);
  }

  /** The lead of codepoint j of a walk with widths `ws` from `pos` sits at
      pos + Offset(ws, j), inside the string, and announces width ws[j]. */
  predicate LeadsAt(b: seq<byte>, pos: nat, ws: seq<nat>) {
    forall j :: 0 <= j < |ws| ==>
      && pos + Offset(ws, j) < |b|
      && LeadWidth(b[pos + Offset(ws, j)]) == ws[j]
  }

  /** Where the walk from `pos` put each codepoint. */
  lemma {:induction false} WalkLeads(b: seq<byte>, pos: nat)
    ensures LeadsAt(b, pos, WalkFrom(b, pos).widths)
    decreases if pos <= |b| then |b| + 1 - pos else 0
  {
    var r := WalkFrom(b, pos);
    if pos < |b| && b[pos] != 0 && LeadWidth(b[pos]) != 0 {
      var w := LeadWidth(b[pos]);
      var rest := WalkFrom(b, pos + w);
      WalkLeads(b, pos + w);
      assert r.widths == [w] + rest.widths;
      forall j | 0 <= j < |r.widths|
        ensures pos + Offset(r.widths, j) < |b|
        ensures LeadWidth(b[pos + Offset(r.widths, j)]) == r.widths[j]
      {
        if j > 0 {
          OffsetCons(w, rest.widths, j - 1);
        } else {
          assert r.widths[..0] == [];
        }
      }
    }
  }

  /** How the walk from `pos` ends: an invalid walk stops at a byte inside the
      string that cannot lead; over a NUL-free string a valid walk ends at or
      past the end. */
  lemma {:induction false} WalkEnd(b: seq<byte>, pos: nat)
    ensures var r := WalkFrom(b, pos);
      && (!r.valid ==> pos + Sum(r.widths) < |b| && LeadWidth(b[pos + Sum(r.widths)]) == 0)
      && (r.valid && NulFree(b) ==> pos + Sum(r.widths) >= |b|)
    decreases if pos <= |b| then |b| + 1 - pos else 0
  {
    var r := WalkFrom(b, pos);
    if pos < |b| && b[pos] != 0 && LeadWidth(b[pos]) != 0 {
      var w := LeadWidth(b[pos]);
      var rest := WalkFrom(b, pos + w);
      WalkEnd(b, pos + w);
      assert r.widths == [w] + rest.widths;
      assert r.widths[1..] == rest.widths;
    }
  }

  lemma {:induction false} WalkShape(b: seq<byte>, pos: nat)
    ensures var r := WalkFrom(b, pos);
      && LeadsAt(b, pos, r.widths)
      && (!r.valid ==> pos + Sum(r.widths) < |b| && LeadWidth(b[pos + Sum(r.widths)]) == 0)
      && (r.valid && NulFree(b) ==> pos + Sum(r.widths) >= |b|)
  {
    WalkLeads(b, pos);
    WalkEnd(b, pos);
  }

  /** A walk never reports more codepoints than the string has bytes. */
  lemma {:induction false} WidthsBoundedByBytes(b: seq<byte>)
    ensures |ScanOf(b).widths| <= |b|
  {
    var ws := ScanOf(b).widths;
    WalkShape(b, 0);
    if |ws| > 0 {
      OffsetAtLeastIndex(ws, |ws| - 1);
    }
  }

  lemma {:induction false} OffsetAtLeastIndex(ws: seq<nat>, j: nat)
    requires j <= |ws|
    requires forall i :: 0 <= i < |ws| ==> ws[i] >= 1
    ensures Offset(ws, j) >= j
    decreases j
  {
    if j > 0 {
      OffsetAtLeastIndex(ws, j - 1);
      OffsetNext(ws, j - 1);
    }
  }

  /** The walk does not carry past the end: either it fails on a bad lead
      byte, or the last codepoint ends exactly at the terminator. A string
      whose last codepoint is truncated makes the copying walkers read
      beyond the terminator, which the source leaves unspecified. */
  predicate Complete(b: seq<byte>) {
    var sc := ScanOf(b);
    !sc.valid || Sum(sc.widths) == |b|
  }

  lemma {:induction false} CompleteCovers(b: seq<byte>)
    requires Complete(b)
    ensures Sum(ScanOf(b).widths) <= |b|
  {
    WalkShape(b, 0);
  }

  /** `b` cut into pieces of the widths `ws`. */
  function Chunks(b: seq<byte>, ws: seq<nat>): (r: seq<seq<byte>>)
    requires Sum(ws) == |b|
    ensures |r| == |ws|
    ensures forall j :: 0 <= j < |r| ==> |r[j]| == ws[j]
    ensures Flatten(r) == b
    decreases |ws|
  {
    if |ws| == 0 then []
    else
      var rest := Chunks(b[ws[0]..], ws[1..]);
      assert Flatten([b[..ws[0]]] + rest) == b[..ws[0]] + Flatten(rest) by {
        assert ([b[..ws[0]]] + rest)[1..] == rest;
      }
      [b[..ws[0]]] + rest
  }

  /** The codepoints the walker delimits, each as its bytes. Covers the whole
      string when the walk is valid, and stops before the bad byte
      otherwise. */
  function Codepoints(b: seq<byte>): (cps: seq<seq<byte>>)
    requires Complete(b)
    ensures |cps| == |ScanOf(b).widths|
    ensures forall j :: 0 <= j < |cps| ==> |cps[j]| == ScanOf(b).widths[j]
    ensures ScanOf(b).valid ==> Flatten(cps) == b
  {
    CompleteCovers(b);
    Chunks(b[..Sum(ScanOf(b).widths)], ScanOf(b).widths)
  }

  lemma {:induction false} ChunkAt(b: seq<byte>, ws: seq<nat>, j: nat)
    requires Sum(ws) == |b| && j < |ws|
    ensures Offset(ws, j) + ws[j] <= |b|
    ensures Chunks(b, ws)[j] == b[Offset(ws, j)..Offset(ws, j) + ws[j]]
    decreases j
  {
    assert Sum(ws) == ws[0] + Sum(ws[1..]);
    if j == 0 {
      assert ws[..0] == [];
    } else {
      var b', ws' := b[ws[0]..], ws[1..];
      ChunkAt(b', ws', j - 1);
      OffsetTail(ws, j);
      var p := Offset(ws', j - 1);
      assert Chunks(b, ws)[j] == Chunks(b', ws')[j - 1];
      SliceOfSlice(b, ws[0], |b|, p, p + ws[j]);
    }
  }

  /** The offset of codepoint j counts the first width and then the offset
      within the rest. */
  lemma {:induction false} OffsetTail(ws: seq<nat>, j: nat)
    requires 0 < j <= |ws|
    ensures Offset(ws, j) == ws[0] + Offset(ws[1..], j - 1)
  {
    assert ws[..j] == [ws[0]] + ws[1..][..j - 1];
    SumAppend([ws[0]], ws[1..][..j - 1]);
  }

  /** Codepoint j of a complete string is the `ws[j]` bytes at its offset. */
  lemma {:induction false} CodepointAt(b: seq<byte>, j: nat)
    requires Complete(b) && j < |ScanOf(b).widths|
    ensures var ws := ScanOf(b).widths;
      && Offset(ws, j) + ws[j] <= |b|
      && Codepoints(b)[j] == b[Offset(ws, j)..Offset(ws, j) + ws[j]]
  {
    var ws := ScanOf(b).widths;
    CompleteCovers(b);
    ChunkAt(b[..Sum(ws)], ws, j);
  }

  /** The codepoints i..j-1 together are the bytes between their offsets. */
  lemma {:induction false} FlattenCodepointRange(b: seq<byte>, i: nat, j: nat)
    requires Complete(b) && i <= j <= |ScanOf(b).widths|
    ensures var ws := ScanOf(b).widths;
      && Offset(ws, i) <= Offset(ws, j) <= |b|
      && Flatten(Codepoints(b)[i..j]) == b[Offset(ws, i)..Offset(ws, j)]
    decreases j - i
  {
    var ws := ScanOf(b).widths;
    var cps := Codepoints(b);
    CompleteCovers(b);
    OffsetMonotone(ws, i, j);
    OffsetMonotone(ws, j, |ws|);
    assert ws[..|ws|] == ws;
    if i == j {
      assert cps[i..j] == [];
    } else {
      FlattenCodepointRange(b, i + 1, j);
      CodepointAt(b, i);
      OffsetNext(ws, i);
      assert cps[i..j] == [cps[i]] + cps[i + 1..j];
      assert Flatten(cps[i..j]) == cps[i] + Flatten(cps[i + 1..j]) by {
        assert ([cps[i]] + cps[i + 1..j])[1..] == cps[i + 1..j];
      }
    }
  }

  /** `str_utf8_substr`: `size` codepoints starting at codepoint `start`.
      The guard compares start + size with the BYTE length first; the walks
      then fail at the terminator or at a byte that cannot lead. */
  function Utf8Substr(s: Str, start: nat, size: nat): (r: Result<Str>)
    requires Valid(s) && Complete(s.bytes)
    requires start + size <= SIZE_MAX
    ensures r.Success? <==> start + size <= |s.bytes| && start + size <= |ScanOf(s.bytes).widths|
    ensures r.Success? ==> Valid(r.value)
    ensures r.Success? ==> r.value.bytes == Flatten(Codepoints(s.bytes)[start..start + size])
  {
    var b := s.bytes;
    var sc := ScanOf(b);
    if start + size > |b| then Failure(OutOfBounds)
    else if start + size > |sc.widths| then
      Failure(if sc.valid then OutOfBounds else InvalidEncoding)
    else
      FlattenCodepointRange(b, start, start + size);
      var p := Offset(sc.widths, start);
      var q := Offset(sc.widths, start + size);
      assert NulFree(b[p..q]) by {
        forall i | 0 <= i < q - p ensures b[p..q][i] != 0 {
          assert b[p..q][i] == b[p + i];
        }
      }
      Fresh(b[p..q])
  }

  /** `str_utf8_char_at`: the bytes of codepoint `index` (at most 4), or the
      empty buffer when the walk meets the terminator or a bad lead byte
      first. The source returns a static buffer; here it is a value. */
  function Utf8CharAt(s: Str, index: nat): (r: seq<byte>)
    requires Valid(s) && Complete(s.bytes)
    ensures |r| <= 4
    ensures r == [] <==> index >= |ScanOf(s.bytes).widths|
    ensures index < |ScanOf(s.bytes).widths| ==> r == Codepoints(s.bytes)[index]
  {
    var b := s.bytes;
    var ws := ScanOf(b).widths;
    if index >= |ws| then []
    else
      CodepointAt(b, index);
      b[Offset(ws, index)..Offset(ws, index) + ws[index]]
  }

  /** A string of bytes 1..127 is all one-byte codepoints. */
  predicate Ascii(b: seq<byte>) {
    forall i :: 0 <= i < |b| ==> 0 < b[i] < 0x80
  }

  lemma {:induction false} AsciiWalk(b: seq<byte>, pos: nat)
    requires Ascii(b) && pos <= |b|
    ensures WalkFrom(b, pos).valid
    ensures |WalkFrom(b, pos).widths| == |b| - pos
    ensures forall j :: 0 <= j < |WalkFrom(b, pos).widths| ==> WalkFrom(b, pos).widths[j] == 1
    decreases |b| - pos
  {
    if pos < |b| {
      AsciiWalk(b, pos + 1);
    }
  }

  lemma {:induction false} SumOfOnes(ws: seq<nat>)
    requires forall j :: 0 <= j < |ws| ==> ws[j] == 1
    ensures Sum(ws) == |ws|
    decreases |ws|
  {
    if |ws| > 0 {
      SumOfOnes(ws[1..]);
    }
  }

  /** On an all-ASCII string `str_utf8_strlen` equals the byte length, the
      string is complete, and every codepoint is one byte. */
  lemma {:induction false} AsciiCodepoints(b: seq<byte>)
    requires Ascii(b)
    ensures Utf8Count(b) == |b|
    ensures Complete(b)
    ensures |Codepoints(b)| == |b|
    ensures forall j :: 0 <= j < |b| ==> Codepoints(b)[j] == [b[j]]
  {
    AsciiWalk(b, 0);
    var ws := ScanOf(b).widths;
    SumOfOnes(ws);
    forall j | 0 <= j < |b| ensures Codepoints(b)[j] == [b[j]] {
      CodepointAt(b, j);
      assert ws[..j] == ws[..j];
      SumOfOnes(ws[..j]);
    }
  }

  /** The walk stops at a NUL byte: whatever follows a NUL is never read,
      provided the walk over the prefix does not jump over the NUL. */
  lemma {:induction false} WalkStopsAtNul(a: seq<byte>, t: seq<byte>, pos: nat)
    requires pos <= |a|
    requires var r := WalkFrom(a, pos); !r.valid || pos + Sum(r.widths) == |a|
    ensures WalkFrom(a + [0] + t, pos) == WalkFrom(a, pos)
    decreases |a| - pos
  {
    var c := a + [0] + t;
    if pos == |a| {
      assert c[pos] == 0;
    } else {
      assert c[pos] == a[pos];
      var w := LeadWidth(a[pos]);
      if a[pos] != 0 && w != 0 {
        var rest := WalkFrom(a, pos + w);
        assert WalkFrom(a, pos).widths == [w] + rest.widths;
        assert !rest.valid || pos + w + Sum(rest.widths) == |a| by {
          assert Sum([w] + rest.widths) == w + Sum(rest.widths) by {
            assert ([w] + rest.widths)[1..] == rest.widths;
          }
        }
        WalkEnd(a, pos + w);
        WalkStopsAtNul(a, t, pos + w);
      }
    }
  }

  /** `str_utf8_strlen` stops at the first NUL it meets as a lead byte. */
  lemma {:induction false} StrlenStopsAtNul(a: seq<byte>, t: seq<byte>)
    requires Complete(a)
    ensures Utf8Count(a + [0] + t) == Utf8Count(a)
  {
    WalkStopsAtNul(a, t, 0);
  }

  function Lengths(cps: seq<seq<byte>>): (ws: seq<nat>)
    ensures |ws| == |cps|
    ensures forall j :: 0 <= j < |ws| ==> ws[j] == |cps[j]|
  {
    if |cps| == 0 then [] else [|cps[0]|] + Lengths(cps[1..])
  }

  lemma {:induction false} LengthsSum(cps: seq<seq<byte>>)
    ensures Sum(Lengths(cps)) == |Flatten(cps)|
    decreases |cps|
  {
    if |cps| > 0 {
      LengthsSum(cps[1..]);
    }
  }

  /** Each codepoint's lead byte announces the codepoint's own length. */
  predicate WellFramed(cps: seq<seq<byte>>) {
    forall j :: 0 <= j < |cps| ==> |cps[j]| >= 1 && cps[j][0] != 0 && LeadWidth(cps[j][0]) == |cps[j]|
  }

  /** Walking `pre + Flatten(cps)` from the end of `pre` yields the lengths
      of `cps`. */
  lemma {:induction false} EncodedWalk(cps: seq<seq<byte>>, pre: seq<byte>)
    requires WellFramed(cps)
    ensures WalkFrom(pre + Flatten(cps), |pre|) == Scan(Lengths(cps), true)
    decreases |cps|
  {
    var b := pre + Flatten(cps);
    if |cps| == 0 {
      assert b == pre;
    } else {
      assert Flatten(cps) == cps[0] + Flatten(cps[1..]);
      assert b == (pre + cps[0]) + Flatten(cps[1..]);
      assert b[|pre|] == cps[0][0];
      EncodedWalk(cps[1..], pre + cps[0]);
      assert Lengths(cps) == [|cps[0]|] + Lengths(cps[1..]);
    }
  }

  lemma {:induction false} EncodedScan(cps: seq<seq<byte>>)
    requires WellFramed(cps)
    ensures ScanOf(Flatten(cps)) == Scan(Lengths(cps), true)
    ensures Complete(Flatten(cps))
  {
    EncodedWalk(cps, []);
    assert [] + Flatten(cps) == Flatten(cps);
    LengthsSum(cps);
  }

  lemma {:induction false} LengthsPrefix(cps: seq<seq<byte>>, j: nat)
    requires j <= |cps|
    ensures Offset(Lengths(cps), j) == |Flatten(cps[..j])|
  {
    LengthsSum(cps[..j]);
    assert Lengths(cps[..j]) == Lengths(cps)[..j];
  }

  lemma {:induction false} EncodedCodepoint(cps: seq<seq<byte>>, j: nat)
    requires WellFramed(cps) && j < |cps|
    ensures Complete(Flatten(cps)) && |Codepoints(Flatten(cps))| == |cps|
    ensures Codepoints(Flatten(cps))[j] == cps[j]
  {
    EncodedScan(cps);
    var b := Flatten(cps);
    var ws := Lengths(cps);
    assert ScanOf(b).widths == ws;
    CodepointAt(b, j);
    LengthsPrefix(cps, j);
    FlattenAround(cps, j);
    var p := |Flatten(cps[..j])|;
    assert Offset(ws, j) == p && ws[j] == |cps[j]|;
    assert b[p..p + |cps[j]|] == cps[j];
  }

  /** Encoding round trip: a string assembled from codepoints whose lead
      bytes announce their own lengths is walked back into exactly those
      codepoints, and its count is the number of codepoints. */
  lemma {:induction false} WalkOfEncoded(cps: seq<seq<byte>>)
    requires WellFramed(cps)
    ensures Complete(Flatten(cps)) && ScanOf(Flatten(cps)).valid
    ensures Codepoints(Flatten(cps)) == cps
    ensures Utf8Count(Flatten(cps)) == |cps|
  {
    EncodedScan(cps);
    var b := Flatten(cps);
    forall j | 0 <= j < |cps| ensures Codepoints(b)[j] == cps[j] {
      EncodedCodepoint(cps, j);
    }
  }

  /** The codepoints the walker delimits in a NUL-free string each start
      with a lead byte announcing their own length. */
  lemma {:induction false} CodepointsWellFramed(b: seq<byte>)
    requires Complete(b) && NulFree(b)
    ensures WellFramed(Codepoints(b))
  {
    var ws := ScanOf(b).widths;
    var cps := Codepoints(b);
    WalkShape(b, 0);
    forall j | 0 <= j < |cps|
      ensures |cps[j]| >= 1 && cps[j][0] != 0 && LeadWidth(cps[j][0]) == |cps[j]|
    {
      CodepointAt(b, j);
      assert cps[j][0] == b[Offset(ws, j)];
    }
  }
}

=== FILE: utf8slicing.dfy ===
/** The codepoint slices `str_utf8_sliced` (a new string) and
  `str_utf8_slice` (in place).

  The bounds are resolved exactly as for the byte slices, but over the count
  `str_utf8_strlen` reports, so a string with a byte that cannot lead
  resolves over 0 codepoints and slices to the empty string. The C code then
  records the width of every codepoint of the range (its `info` table), sizes
  the result as the sum of the widths it will pick, and copies whole
  codepoints.
 */
module Utf8Slicing {
  import opened Results
  import opened Bytes
  import opened Buffer
  import opened Stride
  import opened Utf8
  import opened Slicing

  /** The codepoints of the resolved range. */
  function Selection(b: seq<byte>, rg: Range): (cps: seq<seq<byte>>)
    requires Complete(b) && rg.lo <= rg.hi <= Utf8Count(b)
    ensures |cps| == rg.hi - rg.lo
  {
    Codepoints(b)[rg.lo..rg.hi]
  }

  /** The widths of the codepoints of the range: the C code's `info` table. */
  function Widths(b: seq<byte>, rg: Range): (ws: seq<nat>)
    requires rg.lo <= rg.hi <= Utf8Count(b)
    ensures |ws| == rg.hi - rg.lo
  {
    ScanOf(b).widths[rg.lo..rg.hi]
  }

  lemma {:induction false} SelectionWidths(b: seq<byte>, rg: Range)
    requires Complete(b) && rg.lo <= rg.hi <= Utf8Count(b)
    ensures Lengths(Selection(b, rg)) == Widths(b, rg)
  {
  }

  /** Every codepoint of a NUL-free string is NUL-free. */
  lemma {:induction false} CodepointsNulFree(b: seq<byte>)
    requires Complete(b) && NulFree(b)
    ensures forall j :: 0 <= j < |Codepoints(b)| ==> NulFree(Codepoints(b)[j])
  {
    var ws := ScanOf(b).widths;
    forall j | 0 <= j < |Codepoints(b)| ensures NulFree(Codepoints(b)[j]) {
      CodepointAt(b, j);
      var p := Offset(ws, j);
      forall i | 0 <= i < ws[j] ensures Codepoints(b)[j][i] != 0 {
        assert Codepoints(b)[j][i] == b[p + i];
      }
    }
  }

  /** Taking lengths commutes with picking every k-th element. */
  lemma {:induction false} LengthsStepped(cps: seq<seq<byte>>, step: int64)
    requires step != 0
    ensures Lengths(Stepped(cps, step)) == Stepped(Lengths(cps), step)
  {
    var a, c := Lengths(Stepped(cps, step)), Stepped(Lengths(cps), step);
    SteppedIndex(cps, step);
    SteppedIndex(Lengths(cps), step);
    forall m | 0 <= m < |a| ensures a[m] == c[m] {
      var p := if step > 0 then m * Abs(step) else |cps| - 1 - m * Abs(step);
      assert a[m] == |cps[p]|;
    }
  }

  lemma {:induction false} ForwardSelectedAtMost(ws: seq<nat>, k: nat, p: nat)
    requires k >= 1
    ensures ForwardSelected(ws, k, p) <= Sum(ws)
    decreases |ws|
  {
    if |ws| > 0 {
      ForwardSelectedAtMost(ws[1..], k, p + 1);
    }
  }

  lemma {:induction false} BackwardSelectedAtMost(ws: seq<nat>, k: nat)
    requires k >= 1
    ensures BackwardSelected(ws, k) <= Sum(ws)
    decreases |ws|
  {
    if |ws| > 0 {
      BackwardSelectedAtMost(ws[1..], k);
    }
  }

  /** Picking codepoints never yields more bytes than the range holds. */
  lemma {:induction false} SteppedSumAtMost(ws: seq<nat>, step: int64)
    requires step != 0
    ensures Sum(Stepped(ws, step)) <= Sum(ws)
  {
    if step > 0 {
      ForwardSelectedIsSum(ws, Abs(step));
      ForwardSelectedAtMost(ws, Abs(step), 0);
    } else {
      BackwardSelectedIsSum(ws, Abs(step));
      BackwardSelectedAtMost(ws, Abs(step));
    }
  }

  /** The picked codepoints are codepoints of the string: well framed and
      NUL-free. */
  lemma {:induction false} PickedFramed(b: seq<byte>, rg: Range, step: int64)
    requires Complete(b) && NulFree(b) && step != 0 && rg.lo <= rg.hi <= Utf8Count(b)
    ensures WellFramed(Stepped(Selection(b, rg), step))
    ensures NulFree(Flatten(Stepped(Selection(b, rg), step)))
  {
    var cps := Codepoints(b);
    var sel := Selection(b, rg);
    var picked := Stepped(sel, step);
    CodepointsWellFramed(b);
    CodepointsNulFree(b);
    SteppedIn(sel, step);
    forall m | 0 <= m < |picked|
      ensures |picked[m]| >= 1 && picked[m][0] != 0 && LeadWidth(picked[m][0]) == |picked[m]|
      ensures NulFree(picked[m])
    {
      var p :| 0 <= p < |sel| && sel[p] == picked[m];
      assert sel[p] == cps[rg.lo + p];
    }
    FlattenNulFree(picked);
  }

  /** The picked codepoints take as many bytes as their widths add up to,
      which is at most the string's length. */
  lemma {:induction false} PickedLength(b: seq<byte>, rg: Range, step: int64)
    requires Complete(b) && step != 0 && rg.lo <= rg.hi <= Utf8Count(b)
    ensures |Flatten(Stepped(Selection(b, rg), step))| == Sum(Stepped(Widths(b, rg), step)) <= |b|
  {
    var sel := Selection(b, rg);
    LengthsSum(Stepped(sel, step));
    LengthsStepped(sel, step);
    SelectionWidths(b, rg);
    SteppedSumAtMost(Widths(b, rg), step);
    LengthsSum(sel);
    FlattenCodepointRange(b, rg.lo, rg.hi);
  }

  lemma {:induction false} PickedBytes(b: seq<byte>, rg: Range, step: int64)
    requires Complete(b) && NulFree(b) && step != 0 && rg.lo <= rg.hi <= Utf8Count(b)
    ensures WellFramed(Stepped(Selection(b, rg), step))
    ensures NulFree(Flatten(Stepped(Selection(b, rg), step)))
    ensures |Flatten(Stepped(Selection(b, rg), step))| == Sum(Stepped(Widths(b, rg), step)) <= |b|
  {
    PickedFramed(b, rg, step);
    PickedLength(b, rg, step);
  }

  /** `str_utf8_sliced`: a new string holding every |step|-th codepoint of
      the resolved codepoint range. Its byte length is the sum of the picked
      widths, and walking it yields exactly the picked codepoints, in order
      for a positive step and in reverse order for a negative one. */
  function Utf8Sliced(s: Str, start: int64, end: int64, step: int64): (r: Result<Str>)
    requires Valid(s) && Complete(s.bytes)
    ensures r.Failure? <==> Resolve(Utf8Count(s.bytes), start, end, step).Failure?
    ensures r.Failure? ==> r.error == Resolve(Utf8Count(s.bytes), start, end, step).error
    ensures r.Success? ==> Valid(r.value)
    ensures r.Success? ==>
      var rg := Resolve(Utf8Count(s.bytes), start, end, step).value;
      && |r.value.bytes| == Sum(Stepped(Widths(s.bytes, rg), step))
      && Complete(r.value.bytes)
      && Codepoints(r.value.bytes) == Stepped(Selection(s.bytes, rg), step)
      && Utf8Count(r.value.bytes) == CeilDiv(rg.hi - rg.lo, Abs(step))
  {
    var rg :- Resolve(Utf8Count(s.bytes), start, end, step);
    var picked := Stepped(Selection(s.bytes, rg), step);
    PickedBytes(s.bytes, rg, step);
    WalkOfEncoded(picked);
    SteppedIndex(Selection(s.bytes, rg), step);
    Fresh(Flatten(picked))
  }

  /** What `str_utf8_slice` leaves in the string on success: the length of
      the codepoint slice and the capacity the resize rule gives it. */
  datatype Shape = Shape(length: nat, capacity: nat)

  /** `str_utf8_slice`, its resolution and result size only: the same
      checks as `str_utf8_sliced`, the same byte length, and the capacity the
      resize rule computes from the string's old capacity. */
  function Utf8SliceShape(s: Str, start: int64, end: int64, step: int64): (r: Result<Shape>)
    requires Valid(s) && Complete(s.bytes)
    ensures r.Success? <==> Utf8Sliced(s, start, end, step).Success?
    ensures r.Failure? ==> r.error == Utf8Sliced(s, start, end, step).error
    ensures r.Success? ==> r.value.length == |Utf8Sliced(s, start, end, step).value.bytes|
    ensures r.Success? ==> r.value.length < r.value.capacity <= PTRDIFF_MAX
    ensures r.Success? ==> r.value.capacity == NewCapacity(s.capacity, r.value.length)
  {
    var rg :- Resolve(Utf8Count(s.bytes), start, end, step);
    var total := Sum(Stepped(Widths(s.bytes, rg), step));
    PickedBytes(s.bytes, rg, step);
    NewCapacityBounded(s.capacity, total);
    Success(Shape(total, NewCapacity(s.capacity, total)))
  }

  /** The sizing loop of the UTF-8 slices: a codepoint at offset c of the
      range is counted when c % |step| == 0 (positive step) or when
      (n - c - 1) % |step| == 0 (negative step). The sum is the number of
      bytes of the codepoints the copy picks. */
  method SelectedSize(ws: seq<nat>, step: int64) returns (total: nat)
    requires step != 0
    ensures total == Sum(Stepped(ws, step))
  {
    var n := |ws|;
    var k := Abs(step);
    total := 0;
    var c := 0;
    while c < n
      invariant c <= n
      invariant step > 0 ==> total + ForwardSelected(ws[c..], k, c) == ForwardSelected(ws, k, 0)
      invariant step < 0 ==> total + BackwardSelected(ws[c..], k) == BackwardSelected(ws, k)
    {
      assert ws[c..][1..] == ws[c + 1..];
      if step > 0 {
        if c % k == 0 {
          total := total + ws[c];
        }
      } else {
        if (n - c - 1) % k == 0 {
          total := total + ws[c];
        }
      }
      c := c + 1;
    }
    assert ws[n..] == [];
    if step > 0 {
      ForwardSelectedIsSum(ws, k);
    } else {
      BackwardSelectedIsSum(ws, k);
    }
  }

  /** On ASCII bytes, the codepoints of a range are its single bytes. */
  lemma {:induction false} AsciiSelection(b: seq<byte>, rg: Range)
    requires Ascii(b) && rg.lo <= rg.hi <= |b|
    ensures Complete(b) && Utf8Count(b) == |b|
    ensures forall j :: 0 <= j < rg.hi - rg.lo ==> Selection(b, rg)[j] == [b[rg.lo..rg.hi][j]]
  {
    AsciiCodepoints(b);
  }

  /** On ASCII bytes, picking codepoints picks the same bytes. */
  lemma {:induction false} AsciiPicked(b: seq<byte>, rg: Range, step: int64)
    requires Ascii(b) && rg.lo <= rg.hi <= |b| && step != 0
    ensures Complete(b) && Utf8Count(b) == |b|
    ensures Flatten(Stepped(Selection(b, rg), step)) == Stepped(b[rg.lo..rg.hi], step)
  {
    AsciiSelection(b, rg);
    var sel := Selection(b, rg);
    var sub := b[rg.lo..rg.hi];
    SteppedSingletons(sel, sub, step);
    FlattenSingletons(Stepped(sel, step), Stepped(sub, step));
  }

  /** Picking from a sequence of singletons picks the singletons of the
      picked elements. */
  lemma {:induction false} SteppedSingletons(xss: seq<seq<byte>>, ys: seq<byte>, step: int64)
    requires step != 0 && |xss| == |ys|
    requires forall p :: 0 <= p < |ys| ==> xss[p] == [ys[p]]
    ensures |Stepped(xss, step)| == |Stepped(ys, step)|
    ensures forall m :: 0 <= m < |Stepped(xss, step)| ==> Stepped(xss, step)[m] == [Stepped(ys, step)[m]]
  {
    SteppedIndex(xss, step);
    SteppedIndex(ys, step);
  }

  /** On a string of ASCII bytes the codepoint slices are the byte
      slices. */
  lemma {:induction false} AsciiSlicesAgree(s: Str, start: int64, end: int64, step: int64)
    requires Valid(s) && Ascii(s.bytes)
    ensures Complete(s.bytes)
    ensures Utf8Sliced(s, start, end, step) == Sliced(s, start, end, step)
  {
    AsciiCodepoints(s.bytes);
    var r := Resolve(|s.bytes|, start, end, step);
    if r.Success? {
      AsciiPicked(s.bytes, r.value, step);
    }
  }

  lemma {:induction false} FlattenSingletons(xss: seq<seq<byte>>, xs: seq<byte>)
    requires |xss| == |xs|
    requires forall m :: 0 <= m < |xss| ==> xss[m] == [xs[m]]
    ensures Flatten(xss) == xs
    decreases |xs|
  {
    if |xs| > 0 {
      FlattenSingletons(xss[1..], xs[1..]);
    }
  }

  /** Slicing a well-formed string with (START, END, 1) reproduces it. */
  lemma {:induction false} WholeUtf8Slice(s: Str)
    requires Valid(s) && Complete(s.bytes) && ScanOf(s.bytes).valid
    ensures Utf8Sliced(s, YASLI_START, YASLI_END, 1).Success?
    ensures Utf8Sliced(s, YASLI_START, YASLI_END, 1).value.bytes == s.bytes
  {
    var n := Utf8Count(s.bytes);
    FullRanges(n, 1);
    var cps := Codepoints(s.bytes);
    assert Selection(s.bytes, Range(0, n)) == cps;
    StepOne(cps);
  }

  /** The inner loop of the reverse copy of `str_utf8_sliced` as written: up
      to t times, while the index has not wrapped below 0, it subtracts the
      width of codepoint i from the read offset and then steps i down. */
  function SkipAsWritten(ws: seq<nat>, t: nat, i: int, curr: int): (r: (int, int))
    requires -1 <= i < |ws|
    ensures -1 <= r.0 <= i
    ensures t >= 1 && i >= 0 ==> r.0 < i
    decreases t
  {
    if t == 0 || i < 0 then (i, curr)
    else SkipAsWritten(ws, t - 1, i - 1, curr - ws[i])
  }

  /** The reverse copy loop of `str_utf8_sliced` as written. `buf` holds the
      bytes from the first codepoint of the range on, then the terminator;
      `ws` is the width table of the range. Each round copies ws[i] bytes at
      offset `curr`. A read outside `buf` (including an offset that has
      wrapped below 0 as a `size_t`) is undefined, and yields None. */
  function CopyBackAsWritten(buf: seq<byte>, ws: seq<nat>, k: nat, i: int, curr: int): Option<seq<byte>>
    requires k >= 1 && -1 <= i < |ws|
    decreases i + 1
  {
    if i < 0 then Some([])
    else if curr < 0 || curr + ws[i] > |buf| then None
    else
      var next := SkipAsWritten(ws, k, i, curr);
      match CopyBackAsWritten(buf, ws, k, next.0, next.1)
      case None => None
      case Some(tail) => Some(buf[curr..curr + ws[i]] + tail)
  }

  /** The bytes the reverse branch of `str_utf8_sliced` as written copies for
      the codepoint range `rg`: it starts at the offset of the last codepoint
      of the range and, after each codepoint, moves the offset back by the
      width of the codepoint just copied instead of the one before it. On an
      empty range the start offset already reads the width table at index
      `sub_len - 1`, which wraps to SIZE_MAX: a read outside the table. */
  function ReverseCopyAsWritten(b: seq<byte>, rg: Range, step: int64): Option<seq<byte>>
    requires Complete(b) && step < 0 && rg.lo <= rg.hi <= Utf8Count(b)
  {
    var ws := Widths(b, rg);
    if |ws| == 0 then None
    else
      FlattenCodepointRange(b, rg.lo, rg.hi);
      var p := Offset(ScanOf(b).widths, rg.lo);
      CopyBackAsWritten(b[p..] + [0], ws, Abs(step), |ws| - 1, Sum(ws) - ws[|ws| - 1])
  }

  /** "\xC3\xA9a" (e-acute, then a) is two codepoints of widths 2 and 1. */
  lemma {:induction false} EAcuteThenA()
    ensures var b: seq<byte> := [0xC3, 0xA9, 0x61];
      && Complete(b) && ScanOf(b) == Scan([2, 1], true) && Utf8Count(b) == 2
      && Codepoints(b) == [[0xC3, 0xA9], [0x61]]
  {
    var b: seq<byte> := [0xC3, 0xA9, 0x61];
    assert LeadWidth(0xC3) == 2 && LeadWidth(0x61) == 1;
    assert WalkFrom(b, 3) == Scan([], true);
    assert WalkFrom(b, 2) == Scan([1], true);
    assert WalkFrom(b, 0) == Scan([2, 1], true);
    assert Sum([2, 1]) == 3;
    var cps := Codepoints(b);
    var ws := ScanOf(b).widths;
    assert ws[..0] == [] && ws[..1] == [2];
    assert Offset(ws, 0) == 0 && Offset(ws, 1) == 2;
    CodepointAt(b, 0);
    CodepointAt(b, 1);
    assert |cps| == 2 && b[0..2] == [0xC3, 0xA9] && b[2..3] == [0x61];
  }

  /** Reversing "\xC3\xA9a" codepoint by codepoint: the loop as written
      produces a, 0xA9, a -- after copying "a" it moves back by the width of
      "a" (1) instead of the width of e-acute (2), and copies two bytes from
      the middle of e-acute. */
  lemma {:induction false} ReverseCopyCounterexample()
    ensures var b: seq<byte> := [0xC3, 0xA9, 0x61];
      && Complete(b) && Utf8Count(b) == 2
      && Resolve(2, YASLI_END, YASLI_START, -1) == Success(Range(0, 2))
      && ReverseCopyAsWritten(b, Range(0, 2), -1) == Some([0x61, 0xA9, 0x61])
  {
    var b: seq<byte> := [0xC3, 0xA9, 0x61];
    EAcuteThenA();
    var ws: seq<nat> := [2, 1];
    assert Widths(b, Range(0, 2)) == ws;
    var buf: seq<byte> := [0xC3, 0xA9, 0x61, 0];
    assert b[0..] + [0] == buf;
    assert Offset(ScanOf(b).widths, 0) == 0 by {
      assert ScanOf(b).widths[..0] == [];
    }
    assert SkipAsWritten(ws, 1, 1, 2) == (0, 1);
    assert SkipAsWritten(ws, 1, 0, 1) == (-1, -1);
    assert CopyBackAsWritten(buf, ws, 1, -1, -1) == Some([]);
    assert buf[1..1 + ws[0]] + [] == [0xA9, 0x61];
    assert buf[2..2 + ws[1]] + [0xA9, 0x61] == [0x61, 0xA9, 0x61];
    assert CopyBackAsWritten(buf, ws, 1, 0, 1) == Some([0xA9, 0x61]);
    assert CopyBackAsWritten(buf, ws, 1, 1, 2) == Some([0x61, 0xA9, 0x61]);
  }

  /** The corrected slice reverses "\xC3\xA9a" into "a\xC3\xA9". */
  lemma {:induction false} ReverseEAcuteThenA()
    ensures var s := Str([0xC3, 0xA9, 0x61], 16);
      && Valid(s) && Complete(s.bytes)
      && Utf8Sliced(s, YASLI_END, YASLI_START, -1).Success?
      && Utf8Sliced(s, YASLI_END, YASLI_START, -1).value.bytes == [0x61, 0xC3, 0xA9]
  {
    var s := Str([0xC3, 0xA9, 0x61], 16);
    EAcuteThenA();
    var cps := Codepoints(s.bytes);
    assert Resolve(2, YASLI_END, YASLI_START, -1) == Success(Range(0, 2));
    assert Selection(s.bytes, Range(0, 2)) == cps;
    var picked := Backward(cps, 1);
    BackwardAt(cps, 1, 0);
    BackwardAt(cps, 1, 1);
    DivModUnique(2, 1, 2, 0);
    assert picked == [[0x61], [0xC3, 0xA9]];
    assert Flatten(picked) == [0x61] + Flatten([[0xC3, 0xA9]]);
    var e: seq<byte> := [0xC3, 0xA9];
    FlattenSingle(e);
  }

  /** With every codepoint of uniform width c the inner loop moves the index
      and the offset back in step: offset i*c stays with index i. */
  lemma {:induction false} SkipUniform(ws: seq<nat>, c: nat, t: nat, i: int)
    requires -1 <= i < |ws|
    requires forall j :: 0 <= j < |ws| ==> ws[j] == c
    ensures SkipAsWritten(ws, t, i, i * c) == (i - Min(t, i + 1), (i - Min(t, i + 1)) * c)
    decreases t
  {
    if t > 0 && i >= 0 {
      assert i * c - c == (i - 1) * c;
      SkipUniform(ws, c, t - 1, i - 1);
    }
  }

  /** Codepoint j of a run of codepoints of width c sits at bytes
      j*c .. j*c + c. */
  lemma {:induction false} FlattenUniform(cps: seq<seq<byte>>, c: nat, j: nat)
    requires forall m :: 0 <= m < |cps| ==> |cps[m]| == c
    requires j < |cps|
    ensures j * c + c <= |Flatten(cps)|
    ensures Flatten(cps)[j * c..j * c + c] == cps[j]
    decreases j
  {
    if j > 0 {
      FlattenUniform(cps[1..], c, j - 1);
      assert (j - 1) * c + c == j * c;
    }
  }

  /** With uniform widths the reverse copy as written does copy the picked
      codepoints, last first. */
  lemma {:induction false} CopyBackUniform(buf: seq<byte>, ws: seq<nat>, cps: seq<seq<byte>>, c: nat, k: nat, i: int)
    requires k >= 1 && -1 <= i < |ws| && |cps| == |ws|
    requires forall j :: 0 <= j < |ws| ==> ws[j] == c && |cps[j]| == c
    requires forall j :: 0 <= j < |cps| ==> j * c + c <= |buf| && buf[j * c..j * c + c] == cps[j]
    ensures CopyBackAsWritten(buf, ws, k, i, i * c) == Some(Flatten(Backward(cps[..i + 1], k)))
    decreases i + 1
  {
    if i < 0 {
      assert cps[..i + 1] == [];
    } else {
      var i' := i - Min(k, i + 1);
      SkipUniform(ws, c, k, i);
      CopyBackUniform(buf, ws, cps, c, k, i');
      BackwardFrom(cps, i, k);
      var rest := Backward(cps[..i' + 1], k);
      assert ([cps[i]] + rest)[1..] == rest;
    }
  }

  /** The bytes from the first codepoint of the range on start with the
      codepoints of the range. */
  lemma {:induction false} RangeBuffer(b: seq<byte>, rg: Range)
    requires Complete(b) && rg.lo <= rg.hi <= Utf8Count(b)
    ensures Offset(ScanOf(b).widths, rg.lo) <= |b|
    ensures var buf := b[Offset(ScanOf(b).widths, rg.lo)..] + [0];
      |Flatten(Selection(b, rg))| <= |buf| && Flatten(Selection(b, rg)) == buf[..|Flatten(Selection(b, rg))|]
  {
    FlattenCodepointRange(b, rg.lo, rg.hi);
  }

  /** A buffer that starts with a run of codepoints of width c holds
      codepoint j at bytes j*c .. j*c + c. */
  lemma {:induction false} UniformBuffer(buf: seq<byte>, cps: seq<seq<byte>>, c: nat)
    requires forall m :: 0 <= m < |cps| ==> |cps[m]| == c
    requires |Flatten(cps)| <= |buf| && Flatten(cps) == buf[..|Flatten(cps)|]
    ensures forall j :: 0 <= j < |cps| ==> j * c + c <= |buf| && buf[j * c..j * c + c] == cps[j]
  {
    var f := Flatten(cps);
    forall j | 0 <= j < |cps| ensures j * c + c <= |buf| && buf[j * c..j * c + c] == cps[j] {
      FlattenUniform(cps, c, j);
      assert buf[j * c..j * c + c] == buf[..|f|][j * c..j * c + c];
    }
  }

  /** The whole reverse copy over a run of codepoints of one width. */
  lemma {:induction false} CopyBackAllUniform(buf: seq<byte>, ws: seq<nat>, cps: seq<seq<byte>>, c: nat, k: nat)
    requires k >= 1 && 1 <= |ws| == |cps|
    requires forall j :: 0 <= j < |ws| ==> ws[j] == c && |cps[j]| == c
    requires |Flatten(cps)| <= |buf| && Flatten(cps) == buf[..|Flatten(cps)|]
    ensures CopyBackAsWritten(buf, ws, k, |ws| - 1, Sum(ws) - ws[|ws| - 1]) == Some(Flatten(Backward(cps, k)))
  {
    var n := |ws|;
    UniformBuffer(buf, cps, c);
    UniformSum(ws, c);
    assert n * c == (n - 1) * c + c;
    CopyBackUniform(buf, ws, cps, c, k, n - 1);
    assert cps[..n] == cps;
  }

  /** When the codepoints of the range all have one width -- an ASCII
      string, say -- the reverse copy as written produces the same bytes as
      the corrected `Utf8Sliced`. */
  lemma {:induction false} ReverseCopyAgreesOnUniformWidths(b: seq<byte>, rg: Range, step: int64, c: nat)
    requires Complete(b) && step < 0 && rg.lo < rg.hi <= Utf8Count(b)
    requires forall j :: 0 <= j < |Widths(b, rg)| ==> Widths(b, rg)[j] == c
    ensures ReverseCopyAsWritten(b, rg, step) == Some(Flatten(Stepped(Selection(b, rg), step)))
  {
    var ws := Widths(b, rg);
    var sel := Selection(b, rg);
    UniformSelection(b, rg, c);
    RangeBuffer(b, rg);
    var buf := b[Offset(ScanOf(b).widths, rg.lo)..] + [0];
    CopyBackAllUniform(buf, ws, sel, c, Abs(step));
    ReverseCopyUnfold(b, rg, step);
  }

  /** Reversing the empty string: the corrected slice is empty, while the
      loop as written reads the width table outside its bounds before its
      guard is ever tested. */
  lemma {:induction false} ReverseEmptyRange()
    ensures var s := Str([], 16);
      && Valid(s) && Complete(s.bytes) && Utf8Count(s.bytes) == 0
      && Resolve(0, YASLI_END, YASLI_START, -1) == Success(Range(0, 0))
      && ReverseCopyAsWritten(s.bytes, Range(0, 0), -1) == None
      && Utf8Sliced(s, YASLI_END, YASLI_START, -1).Success?
      && Utf8Sliced(s, YASLI_END, YASLI_START, -1).value.bytes == []
  {
    var s := Str([], 16);
    assert WalkFrom(s.bytes, 0) == Scan([], true);
    var rg := Range(0, 0);
    assert Resolve(0, YASLI_END, YASLI_START, -1) == Success(rg);
    SelectionWidths(s.bytes, rg);
    assert Selection(s.bytes, rg) == [];
    assert Stepped(Selection(s.bytes, rg), -1) == [];
  }

  /** Codepoints of a range of uniform width c have c bytes each. */
  lemma {:induction false} UniformSelection(b: seq<byte>, rg: Range, c: nat)
    requires Complete(b) && rg.lo <= rg.hi <= Utf8Count(b)
    requires forall j :: 0 <= j < |Widths(b, rg)| ==> Widths(b, rg)[j] == c
    ensures forall j :: 0 <= j < |Widths(b, rg)| ==> Widths(b, rg)[j] == c && |Selection(b, rg)[j]| == c
  {
    var sel := Selection(b, rg);
    SelectionWidths(b, rg);
    forall j | 0 <= j < |Widths(b, rg)| ensures |sel[j]| == c {
      assert Lengths(sel)[j] == |sel[j]|;
    }
  }

  /** The reverse copy as written over a non-empty range, unfolded. */
  lemma {:induction false} ReverseCopyUnfold(b: seq<byte>, rg: Range, step: int64)
    requires Complete(b) && step < 0 && rg.lo < rg.hi <= Utf8Count(b)
    ensures Offset(ScanOf(b).widths, rg.lo) <= |b|
    ensures var ws, buf := Widths(b, rg), b[Offset(ScanOf(b).widths, rg.lo)..] + [0];
      && ReverseCopyAsWritten(b, rg, step) == CopyBackAsWritten(buf, ws, Abs(step), |ws| - 1, Sum(ws) - ws[|ws| - 1])
      && Stepped(Selection(b, rg), step) == Backward(Selection(b, rg), Abs(step))
  {
    FlattenCodepointRange(b, rg.lo, rg.hi);
  }

  lemma {:induction false} UniformSum(ws: seq<nat>, c: nat)
    requires forall j :: 0 <= j < |ws| ==> ws[j] == c
    ensures Sum(ws) == |ws| * c
    decreases |ws|
  {
    if |ws| > 0 {
      UniformSum(ws[1..], c);
    }
  }
}
